=== FILE: README.md ===
# flytekit file values, pickled values and node overrides, in Dafny

This project models three parts of flytekit, the Python SDK of the Flyte workflow engine:

- **File value marshalling** (`flytekit/types/file/file.py`):
  - how a `FlyteFile`, a `pathlib.Path` or a `str` becomes a single-file Blob literal, and whether that means an upload;
  - how a Blob literal, or its message-pack or generic record form, becomes a `FlyteFile` again;
  - how `FlyteFile["csv"]`-style classes normalise their extension;
  - how a `FlyteFile` downloads lazily, at most once.
- **The pickle type mapping** (`flytekit/types/pickle/pickle.py`): the `"PythonPickle"` blob format, and the reverse type lookup it shares with the file transformer.
- **The node override model** (`flytekit/core/node.py`):
  - node creation;
  - upstream edges (`runs_before`, `>>`);
  - `with_overrides` with all its validation, including its lack of atomicity;
  - the redirect of metadata overrides to an array-node map task's sub-node metadata.

Modules:

- `Outcomes` (outcomes.dfy): `Option` and `Result`.
- `Literals` (literals.dfy): the Flyte IDL values involved, i.e. blob types, literal types, blobs and literals.
- `FileFormat` (file_format.dfy):
  - Python's `str.strip`, `lstrip("~")` and `lstrip(".")`, with the `str.isspace` character set;
  - `FlyteFile[...]` classes and `extension()`.
- `FlyteFileValue` (flyte_file.dfy): the `FlyteFile` object, its construction, and its download-once `__fspath__`.
- `FileTransformer` (file_transformer.dfy): `FlyteFilePathTransformer`.
- `FileProperties` (file_properties.dfy): lemmas relating the transformer's operations to each other.
- `Pickle` (pickle.dfy): `FlytePickle` and `FlytePickleTransformer`.
- `GuessDisjoint` (guess_disjoint.dfy): the two reverse lookups never claim the same literal type.
- `Nodes` (node.dfy): nodes, the arena that holds them, and the override protocol.
- `NodeProperties` (node_properties.dfy): lemmas about edges, resources and overrides.

Modelling choices:

- **Storage and the execution context are a value.** The `Storage` datatype holds them as fields:
  - `is_remote`, `os.path.isfile`/`Path.is_file`, `get_random_local_path`;
  - `put_data`/`put_raw_data` (the location each returns);
  - `unquote`;
  - whether execution is local;
  - an optional file-type sniffer and the MIME table.

  Every operation is a pure function of it.
- **Uploads are data.** `ToLiteral` returns the literal together with the upload call it makes, if any (`PutData` or `PutRawData`, with source and headers). "No upload happens" is therefore an equation on the result.
- **Downloads take their outcome as a parameter.** The success of a remote fetch is an argument of `FsPath`. A failing fetch leaves the file not downloaded, as the exception in `__fspath__` does.
- **Nodes live in an arena.** A `Graph` holds a sequence of nodes and a sequence of entities (tasks, legacy map tasks, array-node map tasks). Upstream lists hold node handles, which are indices into the arena. They do not hold node ids, because `with_overrides(node_name=...)` changes a node's `id` while other nodes still point to the same object.
- **`with_overrides` is computed on a view, then committed.** The view holds the objects it writes:
  - the node;
  - the task configuration of the node's run entity;
  - for an array-node map task, the sub-node metadata.

  The result is either `Done(state)` or `Stopped(state, error)`. The state is the one reached when the error was raised: every write before a failed check is kept, as in the source.
- **Promises are marked.** An override argument is `Static(value)` or `Promise(source)`.

## Model

| member | source | states |
|---|---|---|
| FileFormat.TrimLeft | flytekit/types/file/file.py:261 | `lstrip(chars)`: the result is a suffix of the input that does not start with a dropped character, every character removed in front of it is a dropped one, and it is the input itself exactly when the input does not start with one |
| FileFormat.TrimRight | flytekit/types/file/file.py:261 | the trailing half of `strip()`: the result is a prefix of the input that does not end with a dropped character, every character removed after it is a dropped one, and it is the input exactly when the input does not end with one |
| FileFormat.ClassGetItem | flytekit/types/file/file.py:253-285 | `FlyteFile[None]` and `FlyteFile[""]` are `FlyteFile` itself, and only those; any other item gives a class whose extension is the item stripped of whitespace, then of leading `~`, then of leading `.` (the emptiness test uses the raw item, so `FlyteFile[" "]` is a format class with extension `""`) |
| FileFormat.NormalizeShape | flytekit/types/file/file.py:261 | a normalised extension never ends with whitespace and never starts with a dot |
| FileFormat.NormalizeFixpoint | flytekit/types/file/file.py:261 | normalisation leaves a string unchanged exactly when the string is empty or neither starts with whitespace, `~` or `.` nor ends with whitespace |
| FileFormat.NormalFormatExtension | flytekit/types/file/file.py:253-285 | the class of an already-normal format string has that string as its extension |
| FlyteFileValue.NewFile | flytekit/types/file/file.py:287-326 | construction keeps path, metadata and remote_path and is never downloaded; a remote path becomes the remote source, gets a fresh local path and a downloader fetching it there; a local path is its own local path with the given downloader |
| FlyteFileValue.FsPath | flytekit/types/file/file.py:328-358 | the downloader runs exactly when the file is not yet downloaded; the path returned is always the local path; only a failing remote fetch returns nothing; the file is marked downloaded exactly when a path was returned |
| FlyteFileValue.SecondAccessRunsNothing | flytekit/types/file/file.py:354-358 | after a successful access, a second access runs no downloader and returns the same local path |
| FlyteFileValue.AccessRepeatedly | flytekit/types/file/file.py:354-358 | over any number of `download()` calls there is at most one successful download, none if the file was already downloaded; every path returned is the local path, and only the downloaded flag changes |
| FlyteFileValue.RemoteFileDownloadsOnFirstAccess | flytekit/types/file/file.py:318-358 | a file built from a remote path fetches that path to its local path on the first access and on no later one |
| FileTransformer.GetFormat | flytekit/types/file/file.py:447-450 | the format of `os.PathLike` is `""`, that of a FlyteFile class is its extension |
| FileTransformer.FileLiteralType | flytekit/types/file/file.py:452-466 | `get_literal_type` is a SINGLE blob type of the declared type's format, with no metadata |
| FileTransformer.AdditionalHeaders | flytekit/types/file/file.py:618-622 | the headers are `{"ContentEncoding": "gzip"}` exactly when the source ends in `.gz`, and empty otherwise |
| FileTransformer.ValidateFileType | flytekit/types/file/file.py:484-518 | validation is skipped for an empty format, a missing sniffer or a remote source; otherwise it fails with "unknown extension" or with the expected MIME entry and the sniffed type, and it passes exactly when it is skipped or the extension has a MIME entry that accepts the sniffed type (substring for one MIME type, membership for a list); "unknown extension" is raised exactly when a checked extension has no MIME entry |
| FileTransformer.ToLiteral | flytekit/types/file/file.py:520-616 | None, an undeclarable type and an unsupported value fail as the source does; a failed file-type validation raises its error, and a local Path or str that is no file raises ValueError or TypeTransformerFailedError; it succeeds exactly when none of these applies; a success is a SINGLE blob of the declared type's format carrying the value's metadata; it uploads exactly when the independent precedence table `WouldUpload` says so; without an upload the uri is the remote source or the source path; with one, the call has the source and gzip headers, `put_data` is used exactly when there is an explicit destination, and the uri is the unquoted location returned |
| FileTransformer.ToPythonValue | flytekit/types/file/file.py:714-728 | a binary literal with a tag other than msgpack is refused; a generic literal with a non-empty struct is read as its path record; a literal that is neither binary, non-empty generic nor a blob, an empty struct included, is not a file; a blob literal is read by `BlobToPythonValue` |
| FileTransformer.FromBinaryIdl | flytekit/types/file/file.py:651-682 | only the msgpack tag decodes, into the path/metadata record; any other tag is an unsupported binary format |
| FileTransformer.DictToFlyteFile | flytekit/types/file/file.py:624-649 | a record without a path is refused; otherwise it reads as a single-file blob with an empty format at that path, with the record's metadata |
| FileTransformer.BlobToPythonValue | flytekit/types/file/file.py:728-763 | a non-SINGLE blob is not a file; a local uri that is not an existing file is refused; otherwise only an undeclarable expected type fails; the result carries the literal's metadata and is not downloaded; `os.PathLike` gets a plain FlyteFile at the uri; a local uri is wrapped as is; a remote uri becomes the remote source and, for a FlyteFile class, a fresh local path with the class rebuilt from its extension |
| FileTransformer.FileGuessPythonType | flytekit/types/file/file.py:765-773 | it succeeds exactly for SINGLE blob types whose format is not `"PythonPickle"`; the result is `FlyteFile` exactly when the format is empty, and otherwise a class whose extension is the normalised format |
| FileProperties.ToLiteralFailures | flytekit/types/file/file.py:530-596 | None gives TypeTransformerFailedError, an undeclarable type ValueError, an unsupported value TypeTransformerFailedError, a local str that is not a file TypeTransformerFailedError, and a local Path that is not a file ValueError |
| FileProperties.NoUploadCases | flytekit/types/file/file.py:558-616 | with `remote_path=False`, a remote source, an `os.PathLike` declared type, a FlyteFile without remote_path under local execution, or a str under local execution, there is no upload and the uri is the source path |
| FileProperties.StrUploadedUnderRemoteExecution | flytekit/types/file/file.py:574-611 | under remote execution, a str naming a local file is uploaded with `put_raw_data` and the uri is the unquoted location |
| FileProperties.PathUploadedUnderLocalExecution | flytekit/types/file/file.py:574-606 | a `pathlib.Path` naming a local file is uploaded even under local execution |
| FileProperties.ExplicitDestinationUsed | flytekit/types/file/file.py:569-611 | a FlyteFile with an explicit non-empty remote_path is put at that destination |
| FileProperties.RemoteSourceReemitted | flytekit/types/file/file.py:542-553 | a FlyteFile with a remote source is emitted as that uri with its own metadata, with no upload |
| FileProperties.RemoteBlobRoundTrip | flytekit/types/file/file.py:741-763 | a remote single-file blob read as an untyped file and written back with an empty-format type keeps its uri and metadata, its format becomes the declared type's empty format, and nothing is uploaded |
| FileProperties.LocalBlobRoundTrip | flytekit/types/file/file.py:750-754 | under local execution a local single-file blob read as `FlyteFile` and written back keeps its uri and metadata, its format becomes `FlyteFile`'s empty format, and nothing is uploaded |
| FileProperties.RemoteBlobIsLazy | flytekit/types/file/file.py:752-763 | reading a remote blob as a FlyteFile class does no I/O: the value points at a fresh local path, is not downloaded, and fetches the uri there on first access |
| FileProperties.PathLikeRemoteBlobDownloads | flytekit/types/file/file.py:739-741 | read as `os.PathLike`, a remote blob keeps the uri as its path but still gets a real downloader |
| FileProperties.ToPythonValueFailures | flytekit/types/file/file.py:624-748 | the failures of reading back, with their exception classes: unsupported binary format, non-SINGLE blob, missing local file, undeclarable expected type, record without a path (ValueError), and a generic literal with an empty struct, which falls through to the blob read and fails with TypeTransformerFailedError |
| FileProperties.PayloadsAgree | flytekit/types/file/file.py:624-712 | a message-pack payload and a generic payload carrying the same record read back to the same value |
| FileProperties.LiteralTypeRoundTrip | flytekit/types/file/file.py:765-773 | `get_literal_type(guess_python_type(lt)) == lt` for every SINGLE blob literal type without metadata whose format is normal and not `"PythonPickle"` |
| FileProperties.FileClassRoundTrip | flytekit/types/file/file.py:765-773 | `guess_python_type(get_literal_type(c))` gives `FlyteFile` itself for `c = FlyteFile`, and for every class of a normal, non-empty extension other than `"PythonPickle"` a class with `c`'s extension (the same model value, not the same Python class object); the `"PythonPickle"` class's literal type is refused; `os.PathLike` reads back as `FlyteFile` |
| Pickle.PickleClassGetItem | flytekit/types/pickle/pickle.py:23-40 | `FlytePickle[None]` is `FlytePickle`, and only it; `FlytePickle[T].python_type()` is T |
| Pickle.PickleToLiteral | flytekit/types/pickle/pickle.py:83-98 | None is refused (AssertionError) and only None; otherwise the literal is a SINGLE `"PythonPickle"` blob at the stored uri, with no literal metadata |
| Pickle.PickleLiteralType | flytekit/types/pickle/pickle.py:110-117 | the literal type is a SINGLE `"PythonPickle"` blob with metadata `python_class_name = str(t)` |
| Pickle.PickleGuessPythonType | flytekit/types/pickle/pickle.py:100-108 | it returns `FlytePickle` exactly for SINGLE blob types of format `"PythonPickle"` and refuses every other type |
| Pickle.PickleLiteralTypeReverses | flytekit/types/pickle/pickle.py:100-117 | the literal type of any pickled type reads back as `FlytePickle` |
| Pickle.PickleLiteralMatchesType | flytekit/types/pickle/pickle.py:90-117 | a pickled value's literal has the blob type its literal type declares |
| GuessDisjoint.ExactlyOneClaimsSingleBlobs | flytekit/types/pickle/pickle.py:100-108 | for every SINGLE blob literal type, exactly one of the pickle and file reverse lookups succeeds |
| GuessDisjoint.NeitherClaimsOtherTypes | flytekit/types/pickle/pickle.py:100-108 | multipart blob types and non-blob types are claimed by neither lookup |
| GuessDisjoint.LiteralTypesStayWithTheirOwner | flytekit/types/pickle/pickle.py:100-117 | the file transformer never claims a pickle literal type; the pickle transformer claims a file literal type exactly when its format is `"PythonPickle"` |
| Nodes.AssertNoPromisesIn | flytekit/core/node.py:26-49 | a list of resource entries passes exactly when no entry holds a promise; otherwise the error names the location |
| Nodes.AssertNoPromisesInResources | flytekit/core/node.py:37-49 | an absent model passes; a model passes exactly when neither requests nor limits hold a promise; requests are checked first, so a limits error means the requests were clean |
| Nodes.ConvertResourceOverrides | flytekit/core/node.py:309-333 | None gives no entries; otherwise there is one entry per present field, carrying that field's value, at most four, in the order CPU, memory, GPU, ephemeral storage |
| Nodes.NewNode | flytekit/core/node.py:60-80 | a missing id is refused with ValueError, and only it; otherwise a node with the DNS-safe id, the given metadata, bindings, entity and edges and no overrides is added at a fresh handle, and nothing else changes |
| Nodes.RunsBefore | flytekit/core/node.py:82-91 | `a` is in `b`'s upstream list afterwards; it is appended only if absent; only `b`'s upstream list changes |
| Nodes.RightShift | flytekit/core/node.py:93-95 | `a >> b` makes `a` upstream of `b`, once, and returns `b`; the graph is unchanged when `a` was already upstream, and no node other than `b` and no field other than `b`'s upstream list changes |
| Nodes.UpstreamIds | flytekit/core/node.py:107-117 | the upstream ids of a node are the ids of its upstream nodes, in order |
| Nodes.RunEntity | flytekit/core/node.py:123-132 | a legacy map task runs its run task, an array-node map task runs its function task, any other entity runs itself |
| Nodes.OverrideNodeMetadata | flytekit/core/node.py:138-221 | timeout, retries, interruptible and name are kept when their argument is left out, whether or not a later check fails |
| Nodes.Override | flytekit/core/node.py:223-306 | no override touches a node's entity, edges or bindings, or which metadata it writes; on an array-node map task the node's own metadata is never written |
| Nodes.WithOverrides | flytekit/core/node.py:223-306 | an override of node `n` changes no other node and keeps the arena well formed |
| NodeProperties.RunsBeforeIdempotent | flytekit/core/node.py:82-91 | calling `runs_before` twice is the same as calling it once |
| NodeProperties.RunsBeforeAddsOnce | flytekit/core/node.py:82-91 | `a` occurs in `b`'s upstream list once after the call if it was absent, as often as before if present, and no other entry's count changes |
| NodeProperties.ChainedRightShift | flytekit/core/node.py:82-95 | `a >> b >> c` makes `a` upstream of `b` and `b` upstream of `c`, and `c` gains no other edge |
| NodeProperties.UpstreamIdsAfterRunsBefore | tests/flytekit/unit/core/test_node_creation.py:68-96 | nodes `n0` and `n1` created in turn, then `n1.runs_before(n0)`: the upstream ids of `n0` are `["n1"]` |
| NodeProperties.ConvertResourcesExample | tests/flytekit/unit/core/test_node_creation.py:213-239 | the requests `cpu="1", mem="100", ephemeral_storage="500Mi"` convert to CPU, MEMORY, EPHEMERAL_STORAGE entries in that order |
| NodeProperties.ResourcePromiseCheck | flytekit/core/node.py:278-279 | the promise check over the converted model passes exactly when no requested or limited resource field holds a promise; the converted model is built by the `_convert_resource_overrides` stand-in for `convert_resources_to_resource_model` |
| NodeProperties.CacheSucceedsExactly | flytekit/core/node.py:185-221 | the cache part of a metadata override completes exactly for the accepted cache arguments (a Cache object alone with a version, `cache=True` with a legacy version, no promises) |
| NodeProperties.MetadataSucceedsExactly | flytekit/core/node.py:162-221 | `_override_node_metadata` completes exactly for the accepted arguments, whatever metadata it writes to |
| NodeProperties.OverrideSucceedsExactly | flytekit/core/node.py:243-306 | `with_overrides` completes exactly when no guarded argument is a promise, aliases is a dict, resources is not combined with requests or limits, the task config keeps its type and the metadata arguments are accepted |
| NodeProperties.TimeoutOverride | flytekit/core/node.py:162-170 | a left-out timeout is kept, None is a zero duration, an int is that many seconds, a timedelta is stored as given, anything else is a ValueError that writes nothing |
| NodeProperties.RetriesInterruptibleName | flytekit/core/node.py:172-183 | a completed override wrote each given retries (as `RetryStrategy(n)`), interruptible and name |
| NodeProperties.CacheOverrideWrites | flytekit/core/node.py:185-221 | after a completed override, `cacheable` is None when cache is omitted, the flag given, or true for a Cache object; the version and serialisation come from the Cache object or the legacy arguments and are otherwise kept |
| NodeProperties.CacheableResetWhenOmitted | flytekit/core/node.py:213 | omitting `cache` still resets `cacheable` to None, even when a later check fails |
| NodeProperties.CacheTrueWithoutVersionFails | flytekit/core/node.py:191-207 | `cache=True` without `cache_version` always ends in ValueError: the legacy-parameter error when `cache_serialize` is given, the missing-version error otherwise |
| NodeProperties.CacheObjectRefused | flytekit/core/node.py:197-207 | a Cache object beside `cache_version` or `cache_serialize`, or without a version, is a ValueError that writes no cache field |
| NodeProperties.CacheObjectMatchesLegacy | flytekit/core/node.py:197-221 | `cache=Cache(version=v, serialize=s)` and `cache=True, cache_version=v, cache_serialize=s` give the same override outcome |
| NodeProperties.SameMetadataOverrideSameOverride | flytekit/core/node.py:300 | `with_overrides` reads the metadata arguments only through `_override_node_metadata` |
| NodeProperties.NodeNameApplied | flytekit/core/node.py:243-247 | `node_name` sets the id to its DNS-safe form, and the new id stays even when a later check fails; without it the id is kept |
| NodeProperties.AliasesOverride | flytekit/core/node.py:249-254 | aliases that are not a dict are an AssertionError; a dict replaces the alias list wholesale, in order, and stays even when a later check fails; no aliases keeps the list |
| NodeProperties.ResourcesExclusive | flytekit/core/node.py:256-259 | `resources` with `requests` or `limits` is a ValueError raised before any resource is written |
| NodeProperties.RequestsWithoutLimits | flytekit/core/node.py:264-280 | requests without limits are accepted, with the converted requests and an empty limits list |
| NodeProperties.TaskConfigTypeMismatch | flytekit/core/node.py:282-286 | a task config of another type than the run entity's is a ValueError, and the current config is kept |
| NodeProperties.OverrideWrites | flytekit/core/node.py:243-306 | a completed override was accepted, wrote each given field, always rebuilt the extended resources from the accelerator and shared memory, left the metadata as `_override_node_metadata` does, and kept everything else |
| NodeProperties.EmptyOverride | flytekit/core/node.py:298 | `with_overrides()` with no arguments is not a no-op: it rebuilds the extended resources from nothing and resets `cacheable` to None |
| NodeProperties.PromisesRefusedEarly | flytekit/core/node.py:243-279 | a promise as `node_name` is refused before anything is written, and one in a request or limit is refused naming that list; all are AssertionErrors; the resource half holds of the `_convert_resource_overrides` stand-in for `convert_resources_to_resource_model` |
| NodeProperties.PromisesRefusedOnNode | flytekit/core/node.py:288-304 | a promise as container image, accelerator, shared memory or pod template is refused naming that argument |
| NodeProperties.PromisesRefusedInMetadata | flytekit/core/node.py:172-221 | a promise as retries, interruptible, cache, cache_version or cache_serialize is refused naming that argument |
| NodeProperties.NodeNameSurvivesResourceConflict | flytekit/core/node.py:243-259 | `with_overrides` is not atomic: with `node_name` beside a refused resource combination, the ValueError leaves the node renamed and nothing else changed |
| NodeProperties.MetadataRedirect | flytekit/core/node.py:156-160 | on an array-node map task, metadata overrides go to the sub-node metadata and the node's own metadata is untouched; on any other node they go to the node's metadata and no entity's kind changes |
| NodeProperties.TaskConfigGoesToRunEntity | flytekit/core/node.py:282-286 | a completed task config override is stored on the run entity, and no other entity's configuration changes |

## Left out

- Storage I/O (`is_remote`, `put_data`, `put_raw_data`, `get_data`, `get_random_local_path`, file tests, fsspec streaming `open`): these are fields of the `Storage` value, with no behaviour of their own.
- The async/await plumbing, the pydantic and mashumaro serialisation hooks, `new_remote_file`, `from_source`, `new`, `open`, `__eq__`, `__repr__` and `__hash__` of `FlyteFile`: they are outside the marshalling core.
- libmagic sniffing and the `mimetypes` table: the sniffed type and the extension-to-MIME table are inputs. Only the decision logic of `validate_file_type` is modelled. The sniffer is taken as total, so a local path that names no file is sniffed too and may pass or fail validation; in the source `magic.from_file` is called on it before any existence check, although the docstring promises a silent return for a missing file.
- msgpack and protobuf-struct decoding: the decoded `{"path", "metadata"}` record is the input of `DictToFlyteFile`. Of the struct itself only whether it has any key is kept, since an empty struct is false in Python and skips the generic branch.
- The MESSAGEPACK constant of `flytekit.core.constants` is not part of this model; its value is taken to be `"msgpack"`.
- FileFormat.ClassGetItem: each `FlyteFile[item]` and `FlytePickle[T]` call creates a new class object. The model names such classes by their extension (`FormatFile(ext)`) or by their type, so two calls with the same item give the same model value. Class identity, `is`, `==` and `issubclass` between two such classes are not modelled.
- `FileExt.check_and_convert_to_str` is taken as the identity on strings. `FlyteFile[...]` items are modelled as strings or None.
- cloudpickle, md5 hashing and writing the pickle file (`to_pickle`, `from_pickle`, the pickle transformer's `to_python_value`): all foreign serialisation and I/O. `PickleToLiteral` takes the stored uri as a parameter.
- `_dnsify`, `ResourceSpec.from_multiple_resource` and `construct_extended_resources` are not part of this model. They are the uninterpreted fields of `OverrideEnv`.
- `convert_resources_to_resource_model` is not part of this model. The resources model is built from `_convert_resource_overrides` on the requests and on the limits, which agrees with the request and limit lists that test_node_creation.py expects.
- The type checks `requests and not isinstance(requests, Resources)` (node.py:265-268): override arguments are typed, so they cannot fail.
- `task_config` type comparison is by exact class name; a subclass instance, which `isinstance` accepts, is not modelled.
- `cache_ignore_input_vars` and the other `Cache` fields (`ignored_inputs`, `salt`, `policies`): with_overrides never writes them to node metadata.
- DefaultSerialize: when `cache=True` comes without a version but with a promise as `cache_serialize`, the model builds the default Cache with `serialize=False` rather than the promise. The override is refused in that case anyway, so nothing observable differs.
- Object identity in `Node.__init__`: the upstream list and the metadata object are stored by reference in the source, and by value in the arena, so a caller's later mutation of its own list does not reach the node.
- Bool timeouts: Python treats `True` as the int 1; the model has no bool timeout argument.
- Logger warnings, `Node.outputs` and `Node.name` (a synonym of `id`).
- `remote_path=True`: the field may hold a bool, and `remote_path or None` then passes `True` to `put_data` as the destination (file.py:569 and 601-603). `RemotePath` has only unset, False and a string destination, so this case is not modelled.
- `get_underlying_type`, which unwraps `Annotated[...]` declared types (file.py:534 and 744): declared types are given already unwrapped.
- User subclasses of `FlyteFile`, which `issubclass(python_type, FlyteFile)` accepts (file.py:536, 576 and 747): `FileClass` has only `FlyteFile` and the classes `FlyteFile[item]` creates.
- Arbitrary user downloaders: `Downloader` is either the no-op or a fetch of a remote uri, and only a fetch can fail. A local file built with a user-supplied downloader that raises is not expressible.
- The class docstring table of file.py (lines 112-118) says `os.PathLike` values get a no-op downloader. The code instead builds `FlyteFile(path=uri)` (line 741), whose constructor attaches a real downloader for remote uris. The model follows the code; see `FileProperties.PathLikeRemoteBlobDownloads`.

=== FILE: file_format.dfy ===
/** Format strings of file types: `FlyteFile[...]` normalisation and the class it selects
    (flytekit/types/file/file.py, `__class_getitem__` and `extension`). */
module FileFormat {
  import opened Outcomes

  /** Python's `str.isspace()`: the characters `str.strip()` removes. */
  predicate IsSpace(c: char) {
    var n := c as int;
    || (0x09 <= n <= 0x0d) || (0x1c <= n <= 0x20) || n == 0x85 || n == 0xa0
    || n == 0x1680 || (0x2000 <= n <= 0x200a) || n == 0x2028 || n == 0x2029
    || n == 0x202f || n == 0x205f || n == 0x3000
  }

  predicate IsTilde(c: char) { c == '~' }

  predicate IsDot(c: char) { c == '.' }

  /** `s.lstrip(chars)`: the longest suffix of `s` not starting with a dropped character. */
  function TrimLeft(s: string, drop: char -> bool): (r: string)
    ensures |r| <= |s| && r == s[|s| - |r|..]
    ensures r == [] || !drop(r[0])
    ensures r == s <==> s == [] || !drop(s[0])
    ensures forall i :: 0 <= i < |s| - |r| ==> drop(s[i])
    decreases |s|
  {
    if |s| > 0 && drop(s[0]) then
      var t := TrimLeft(s[1..], drop);
      DroppedPrefixExtends(s, s[1..], |s| - |t|, drop);
      t
    else s
  }

  /** `s.rstrip(chars)`: the longest prefix of `s` not ending with a dropped character. */
  function TrimRight(s: string, drop: char -> bool): (r: string)
    ensures |r| <= |s| && r == s[..|r|]
    ensures r == [] || !drop(r[|r| - 1])
    ensures r == s <==> s == [] || !drop(s[|s| - 1])
    ensures forall i :: |r| <= i < |s| ==> drop(s[i])
    decreases |s|
  {
    if |s| > 0 && drop(s[|s| - 1]) then
      var t := TrimRight(s[..|s| - 1], drop);
      DroppedSuffixExtends(s, s[..|s| - 1], |t|, drop);
      t
    else s
  }

  /** One more dropped character in front of a dropped prefix of `s[1..]`. */
  lemma DroppedPrefixExtends(s: string, rest: string, k: nat, drop: char -> bool)
    requires 0 < k <= |s| && drop(s[0]) && rest == s[1..]
    requires forall i :: 0 <= i < k - 1 ==> drop(rest[i])
    ensures forall i :: 0 <= i < k ==> drop(s[i])
  {
    forall i | 0 < i < k ensures drop(s[i]) {
      assert s[i] == rest[i - 1];
    }
  }

  /** One more dropped character after a dropped suffix of `s[..|s| - 1]`. */
  lemma DroppedSuffixExtends(s: string, rest: string, k: nat, drop: char -> bool)
    requires k < |s| && drop(s[|s| - 1]) && rest == s[..|s| - 1]
    requires forall i :: k <= i < |rest| ==> drop(rest[i])
    ensures forall i :: k <= i < |s| ==> drop(s[i])
  {
    forall i | k <= i < |rest| ensures drop(s[i]) {
      assert s[i] == rest[i];
    }
  }

  /** `s.strip()`. */
  function Strip(s: string): string {
    TrimRight(TrimLeft(s, IsSpace), IsSpace)
  }

  /** The extension `FlyteFile[item]` records: whitespace stripped, then leading `~`,
      then leading `.` removed. */
  function Normalize(item: string): string {
    TrimLeft(TrimLeft(Strip(item), IsTilde), IsDot)
  }

  /** A format that normalisation leaves as it is. */
  predicate IsNormalFormat(s: string) {
    s == [] || (!IsSpace(s[0]) && !IsSpace(s[|s| - 1]) && !IsTilde(s[0]) && !IsDot(s[0]))
  }

  /** A file-value class: `FlyteFile` itself, or the class `FlyteFile[item]` creates. */
  datatype FileClass = BaseFile | FormatFile(ext: string)

  /** `cls.extension()`. */
  function Extension(c: FileClass): string {
    match c
    case BaseFile => ""
    case FormatFile(e) => e
  }

  /** `FlyteFile[item]` (`FileExt.check_and_convert_to_str` is the identity on strings). */
  function ClassGetItem(item: Option<string>): (c: FileClass)
    ensures c == BaseFile <==> item.None? || item.value == ""
    ensures c.FormatFile? ==> Extension(c) == Normalize(item.value)
  {
    if item.None? then BaseFile
    else if item.value == "" then BaseFile
    else FormatFile(Normalize(item.value))
  }

  /** A normalised format never ends with whitespace and never starts with a dot (it may
      start with whitespace or `~`). */
  lemma NormalizeShape(item: string)
    ensures var e := Normalize(item);
            e == [] || (!IsSpace(e[|e| - 1]) && !IsDot(e[0]))
  {
    var a := TrimLeft(item, IsSpace);
    var s := TrimRight(a, IsSpace);
    var t := TrimLeft(s, IsTilde);
    var e := TrimLeft(t, IsDot);
    if e != [] {
      assert s != [] && !IsSpace(s[|s| - 1]);
      assert t[|t| - 1] == s[|s| - 1];
      assert e[|e| - 1] == t[|t| - 1];
    }
  }

  /** Normalisation leaves a format unchanged exactly when it is already in normal form. */
  lemma {:induction false} NormalizeFixpoint(s: string)
    ensures Normalize(s) == s <==> IsNormalFormat(s)
  {
    var a := TrimLeft(s, IsSpace);
    var b := TrimRight(a, IsSpace);
    var t := TrimLeft(b, IsTilde);
    var e := TrimLeft(t, IsDot);
    assert Normalize(s) == e;
    if e == s {
      assert |a| == |s| && |b| == |s| && |t| == |s|;
      assert a == s && b == s && t == s;
    }
    if IsNormalFormat(s) && s != [] {
      assert a == s;
      assert b == s;
      assert t == s;
    }
  }

  /** A format in normal form is its own normalisation. */
  lemma NormalFormatIsFixed(s: string)
    requires IsNormalFormat(s)
    ensures Normalize(s) == s
  {
    NormalizeFixpoint(s);
  }

  /** `FlyteFile[f]` of a format in normal form has exactly that extension. */
  lemma NormalFormatExtension(f: string)
    requires IsNormalFormat(f)
    ensures Extension(ClassGetItem(Some(f))) == f
  {
    if f != "" {
      NormalFormatIsFixed(f);
    }
  }
}

=== FILE: file_properties.dfy ===
/** Properties relating the file transformer's operations to each other. */
module FileProperties {
  import opened Outcomes
  import opened Literals
  import opened FileFormat
  import opened FlyteFileValue
  import opened FileTransformer
  import Pickle

  /** Validation has nothing to check: empty format, no sniffer, or a remote source. */
  predicate ValidationSkipped(t: DeclaredType, source: string, env: Storage)
    requires !t.OtherType?
  {
    GetFormat(t) == "" || env.sniff.None? || env.isRemote(source)
  }

  /** The failures of `to_literal` and the exception class of each. */
  lemma ToLiteralFailures(v: HostValue, t: DeclaredType, env: Storage)
    ensures v.NoneValue? ==> ToLiteral(v, t, env) == Err(NoneValueGiven)
                             && Kind(NoneValueGiven) == TypeTransformerFailedError
    ensures !v.NoneValue? && t.OtherType? ==> ToLiteral(v, t, env) == Err(IncorrectDeclaredType)
                                              && Kind(IncorrectDeclaredType) == ValueError
    ensures v.OtherValue? && !t.OtherType? ==> ToLiteral(v, t, env) == Err(UnsupportedValue)
                                               && Kind(UnsupportedValue) == TypeTransformerFailedError
    ensures v.StrValue? && t.FileType? && ValidationSkipped(t, v.s, env)
            && !env.isRemote(v.s) && !env.isFile(v.s) ==>
              ToLiteral(v, t, env) == Err(StrNotAFile(v.s)) && Kind(StrNotAFile(v.s)) == TypeTransformerFailedError
    ensures v.PathValue? && t.FileType? && ValidationSkipped(t, v.path, env)
            && !env.isRemote(v.path) && !env.isFile(v.path) ==>
              ToLiteral(v, t, env) == Err(PathNotAFile(v.path)) && Kind(PathNotAFile(v.path)) == ValueError
  {
  }

  /** No upload happens, and the uri is the source path itself, when `remote_path` is
      False, the source is remote, the declared type is `os.PathLike`, a FlyteFile without
      `remote_path` runs locally, or a str runs locally. */
  lemma NoUploadCases(v: HostValue, t: DeclaredType, env: Storage)
    requires v.FileValue? ==> v.file.remoteSource.None?
    requires ToLiteral(v, t, env).Ok?
    requires || (v.FileValue? && v.file.remotePath.NoUpload?)
             || ((v.FileValue? || v.PathValue? || v.StrValue?) && env.isRemote(SourcePath(v)))
             || t.PathLikeType?
             || (v.FileValue? && v.file.remotePath.Unset? && env.localExecution)
             || (v.StrValue? && env.localExecution)
    ensures var e := ToLiteral(v, t, env).value;
            e.upload.None? && BlobOf(e.literal).uri == SourcePath(v)
  {
  }

  /** A local str naming an existing file, under remote execution and a FlyteFile type,
      is uploaded to a destination the storage picks; the uri is the decoded location. */
  lemma StrUploadedUnderRemoteExecution(s: string, c: FileClass, env: Storage)
    requires !env.localExecution && !env.isRemote(s) && env.isFile(s)
    requires ValidationSkipped(FileType(c), s, env)
    ensures ToLiteral(StrValue(s), FileType(c), env) ==
              Ok(Emitted(BlobLiteral(SingleBlob(Extension(c)), env.unquote(env.putRawData(s, AdditionalHeaders(s))), None),
                         Some(PutRawData(s, AdditionalHeaders(s)))))
  {
  }

  /** Unlike a str, a pathlib.Path naming a local file is uploaded even under local
      execution. */
  lemma PathUploadedUnderLocalExecution(p: string, c: FileClass, env: Storage)
    requires env.localExecution && !env.isRemote(p) && env.isFile(p)
    requires ValidationSkipped(FileType(c), p, env)
    ensures ToLiteral(PathValue(p), FileType(c), env).Ok?
    ensures ToLiteral(PathValue(p), FileType(c), env).value.upload == Some(PutRawData(p, AdditionalHeaders(p)))
  {
  }

  /** A FlyteFile with an explicit non-empty `remote_path` is put at that destination. */
  lemma ExplicitDestinationUsed(f: FlyteFile, c: FileClass, env: Storage)
    requires f.remoteSource.None? && f.remotePath.Destination? && f.remotePath.uri != ""
    requires !env.isRemote(f.path) && ValidationSkipped(FileType(c), f.path, env)
    ensures ToLiteral(FileValue(f), FileType(c), env) ==
              Ok(Emitted(BlobLiteral(SingleBlob(Extension(c)),
                                     env.unquote(env.putData(f.path, f.remotePath.uri, AdditionalHeaders(f.path))),
                                     f.metadata),
                         Some(PutData(f.path, f.remotePath.uri, AdditionalHeaders(f.path)))))
  {
  }

  /** A file with a remote source is written back as that source with its own metadata,
      without an upload, whenever validation has nothing to check. */
  lemma RemoteSourceReemitted(f: FlyteFile, t: DeclaredType, env: Storage)
    requires !t.OtherType? && f.remoteSource.Some? && ValidationSkipped(t, f.path, env)
    ensures ToLiteral(FileValue(f), t, env) ==
              Ok(Emitted(BlobLiteral(SingleBlob(GetFormat(t)), f.remoteSource.value, f.metadata), None))
  {
  }

  /** A remote single-file blob read as an untyped file and written back with an
      empty-format type keeps its uri and metadata, and nothing is uploaded. */
  lemma RemoteBlobRoundTrip(format: string, uri: string, md: Option<Metadata>,
                            expected: DeclaredType, t: DeclaredType, env: Storage)
    requires env.isRemote(uri)
    requires expected == PathLikeType || expected == FileType(BaseFile)
    requires !t.OtherType? && GetFormat(t) == ""
    ensures var r := ToPythonValue(BlobLiteral(SingleBlob(format), uri, md), expected, env);
            && r.Ok?
            && ToLiteral(FileValue(r.value), t, env) == Ok(Emitted(BlobLiteral(SingleBlob(""), uri, md), None))
  {
  }

  /** Under local execution, a local file read as an untyped file and written back keeps
      its uri and metadata, and nothing is uploaded. */
  lemma LocalBlobRoundTrip(format: string, uri: string, md: Option<Metadata>, env: Storage)
    requires env.localExecution && !env.isRemote(uri) && env.isFile(uri)
    ensures var r := ToPythonValue(BlobLiteral(SingleBlob(format), uri, md), FileType(BaseFile), env);
            && r.Ok?
            && ToLiteral(FileValue(r.value), FileType(BaseFile), env)
               == Ok(Emitted(BlobLiteral(SingleBlob(""), uri, md), None))
  {
  }

  /** Reading a remote blob performs no I/O: the value is not downloaded, points at a
      scratch local path, and its first access fetches the remote uri into that path. */
  lemma RemoteBlobIsLazy(b: Blob, md: Option<Metadata>, c: FileClass, env: Storage)
    requires ScratchPathsAreLocal(env)
    requires b.blobType.dimensionality == Single && env.isRemote(b.uri)
    ensures var r := BlobToPythonValue(b, md, FileType(c), env);
            && r.Ok?
            && r.value.remoteSource == Some(b.uri)
            && !r.value.downloaded
            && r.value.localPath == env.randomLocalPath(b.uri) == r.value.path
            && r.value.downloader == Fetch(b.uri, r.value.localPath)
            && FsPath(r.value, true) == Access(r.value.(downloaded := true), Some(r.value.localPath), true)
  {
    assert !env.isRemote(env.randomLocalPath(b.uri));
  }

  /** Read as `os.PathLike`, a remote blob keeps the uri as its path and still gets a
      downloader bound to a scratch path (the class docstring promises a no-op one). */
  lemma PathLikeRemoteBlobDownloads(b: Blob, md: Option<Metadata>, env: Storage)
    requires b.blobType.dimensionality == Single && env.isRemote(b.uri)
    ensures var r := BlobToPythonValue(b, md, PathLikeType, env);
            && r.Ok? && r.value.path == b.uri && r.value.remoteSource == Some(b.uri)
            && r.value.downloader == Fetch(b.uri, env.randomLocalPath(b.uri))
  {
  }

  /** The failures of `to_python_value` and of the record form, with their exception
      classes. */
  lemma ToPythonValueFailures(lv: Literal, d: PathRecord, otherKeys: bool, expected: DeclaredType, env: Storage)
    ensures lv.scalar.Some? && lv.scalar.value.BinaryScalar? && lv.scalar.value.tag != Messagepack ==>
              ToPythonValue(lv, expected, env).Err?
              && Kind(ToPythonValue(lv, expected, env).error) == TypeTransformerFailedError
    ensures IsBlobLiteral(lv) && BlobOf(lv).blobType.dimensionality != Single ==>
              ToPythonValue(lv, expected, env) == Err(NotAFile(BlobOf(lv).uri))
              && Kind(NotAFile(BlobOf(lv).uri)) == TypeTransformerFailedError
    ensures IsBlobLiteral(lv) && BlobOf(lv).blobType.dimensionality == Single
            && !env.isRemote(BlobOf(lv).uri) && !env.isFile(BlobOf(lv).uri) ==>
              ToPythonValue(lv, expected, env) == Err(MissingLocalFile(BlobOf(lv).uri))
              && Kind(MissingLocalFile(BlobOf(lv).uri)) == FlyteAssertion
    ensures IsBlobLiteral(lv) && BlobOf(lv).blobType.dimensionality == Single && expected.OtherType?
            && (env.isRemote(BlobOf(lv).uri) || env.isFile(BlobOf(lv).uri)) ==>
              ToPythonValue(lv, expected, env) == Err(NotAFileType) && Kind(NotAFileType) == TypeError
    ensures d.path.None? ==>
              && ToPythonValue(Literal(Some(BinaryScalar(Messagepack, d)), None), expected, env) == Err(MissingPath)
              && Kind(MissingPath) == ValueError
    ensures d.path.None? && (d.metadata.Some? || otherKeys) ==>
              ToPythonValue(Literal(Some(GenericScalar(d, otherKeys)), None), expected, env) == Err(MissingPath)
    ensures d.path.None? && d.metadata.None? && !otherKeys ==>
              ToPythonValue(Literal(Some(GenericScalar(d, otherKeys)), None), expected, env) == Err(NotABlob)
              && Kind(NotABlob) == TypeTransformerFailedError
  {
  }

  /** A binary message-pack payload and a generic payload carrying the same record decode
      to the same value as the empty-format blob the record names. */
  lemma PayloadsAgree(d: PathRecord, otherKeys: bool, md: Option<Metadata>, expected: DeclaredType, env: Storage)
    requires d.path.Some?
    ensures ToPythonValue(Literal(Some(BinaryScalar(Messagepack, d)), md), expected, env)
         == ToPythonValue(Literal(Some(GenericScalar(d, otherKeys)), md), expected, env)
         == ToPythonValue(BlobLiteral(SingleBlob(""), d.path.value, d.metadata), expected, env)
  {
  }

  /** `get_literal_type(guess_python_type(lt)) == lt` for a single-file blob type of a
      normalised format other than the pickle one. */
  lemma LiteralTypeRoundTrip(lt: LiteralType)
    requires lt.blob.Some? && lt.blob.value.dimensionality == Single && lt.metadata.None?
    requires lt.blob.value.format != Pickle.PythonPickleFormat && IsNormalFormat(lt.blob.value.format)
    ensures FileGuessPythonType(lt).Ok?
    ensures FileLiteralType(FileType(FileGuessPythonType(lt).value)) == lt
  {
    var f := lt.blob.value.format;
    NormalFormatExtension(f);
    assert FileGuessPythonType(lt) == Ok(ClassGetItem(Some(f)));
  }

  /** `guess_python_type(get_literal_type(c))` comes back as `c`'s model value (`FlyteFile`,
      or a class of the same extension) for every class of a normalised non-empty format
      other than the pickle one, which the file transformer refuses to reverse;
      `os.PathLike` comes back as `FlyteFile`. */
  lemma FileClassRoundTrip(c: FileClass)
    requires c.FormatFile? ==> c.ext != "" && IsNormalFormat(c.ext)
    ensures FileGuessPythonType(FileLiteralType(FileType(c))) ==
              if c == FormatFile(Pickle.PythonPickleFormat) then Err(CannotReverse) else Ok(c)
    ensures FileGuessPythonType(FileLiteralType(PathLikeType)) == Ok(BaseFile)
  {
    if c.FormatFile? && c.ext != Pickle.PythonPickleFormat {
      NormalFormatIsFixed(c.ext);
      assert FileGuessPythonType(FileLiteralType(FileType(c))) == Ok(ClassGetItem(Some(c.ext)));
    }
  }
}

=== FILE: file_transformer.dfy ===
/** `FlyteFilePathTransformer`: file values to blob literals and back
    (flytekit/types/file/file.py). */
module FileTransformer {
  import opened Outcomes
  import opened Literals
  import opened FileFormat
  import opened FlyteFileValue
  import Pickle

  /** The packing tag of message-pack encoded binary scalars. */
  const Messagepack: string := "msgpack"

  /** A declared or expected host type: `os.PathLike`, a `FlyteFile` class, or any
      other type. */
  datatype DeclaredType = PathLikeType | FileType(cls: FileClass) | OtherType(name: string)

  /** The shapes of host value `to_literal` distinguishes. */
  datatype HostValue =
    | NoneValue
    | FileValue(file: FlyteFile)
    | PathValue(path: string)     // a pathlib.Path
    | StrValue(s: string)
    | OtherValue

  datatype FileError =
    | NoneValueGiven                           // to_literal of None
    | IncorrectDeclaredType                    // neither os.PathLike nor a FlyteFile class
    | UnsupportedValue                         // not a FlyteFile, Path or str
    | PathNotAFile(path: string)               // a local pathlib.Path that is not a file
    | StrNotAFile(s: string)                   // a local str that is not a file
    | IncorrectFileType(expected: MimeEntry, got: string)
    | UnknownExtension(ext: string)            // no MIME entry for the extension
    | UnsupportedBinaryFormat(tag: string)
    | NotABlob                                 // the literal holds no blob
    | NotAFile(uri: string)                    // a blob that is not SINGLE
    | MissingLocalFile(uri: string)            // a local uri that is not an existing file
    | MissingPath                              // a path record without "path"
    | NotAFileType                             // expected type is neither PathLike nor FlyteFile
    | CannotReverse                            // guess_python_type rejects the literal type

  datatype ErrorKind = TypeTransformerFailedError | ValueError | TypeError | FlyteAssertion | KeyError

  /** The exception class each failure is raised as. */
  function Kind(e: FileError): ErrorKind {
    match e
    case NoneValueGiven => TypeTransformerFailedError
    case IncorrectDeclaredType => ValueError
    case UnsupportedValue => TypeTransformerFailedError
    case PathNotAFile(_) => ValueError
    case StrNotAFile(_) => TypeTransformerFailedError
    case IncorrectFileType(_, _) => ValueError
    case UnknownExtension(_) => KeyError
    case UnsupportedBinaryFormat(_) => TypeTransformerFailedError
    case NotABlob => TypeTransformerFailedError
    case NotAFile(_) => TypeTransformerFailedError
    case MissingLocalFile(_) => FlyteAssertion
    case MissingPath => ValueError
    case NotAFileType => TypeError
    case CannotReverse => ValueError
  }

  /** `get_format(t)`: the extension of a file class, `""` for `os.PathLike`. */
  function GetFormat(t: DeclaredType): (f: string)
    requires !t.OtherType?
    ensures t.PathLikeType? ==> f == ""
    ensures t.FileType? ==> f == Extension(t.cls)
  {
    if t.PathLikeType? then "" else Extension(t.cls)
  }

  /** `get_literal_type(t)`: a single-file blob type of the declared format. */
  function FileLiteralType(t: DeclaredType): (lt: LiteralType)
    requires !t.OtherType?
    ensures lt.blob == Some(BlobType(GetFormat(t), Single)) && lt.metadata.None?
  {
    LiteralType(Some(SingleBlob(GetFormat(t))), None)
  }

  /** `s.endswith(suffix)`. */
  predicate EndsWith(s: string, suffix: string) {
    |suffix| <= |s| && s[|s| - |suffix|..] == suffix
  }

  /** `get_additional_headers(source)`: a gzip content encoding for `.gz` sources only. */
  function AdditionalHeaders(source: string): (h: Metadata)
    ensures EndsWith(source, ".gz") ==> h == map["ContentEncoding" := "gzip"]
    ensures !EndsWith(source, ".gz") ==> h == map[]
  {
    if EndsWith(source, ".gz") then map["ContentEncoding" := "gzip"] else map[]
  }

  /** `needle in hay` for two strings: substring containment. */
  predicate Contains(hay: string, needle: string)
    decreases |hay|
  {
    (|needle| <= |hay| && hay[..|needle|] == needle) || (|hay| > 0 && Contains(hay[1..], needle))
  }

  /** `real_type in expected_type`: substring containment for a single MIME string,
      membership for a list of them. */
  predicate MimeAccepts(entry: MimeEntry, sniffed: string) {
    match entry
    case OneMime(m) => Contains(m, sniffed)
    case ManyMimes(ms) => sniffed in ms
  }

  /** Outcome of a check that raises or passes. */
  datatype Check = Pass | Fail(error: FileError)

  /** `validate_file_type(t, source)`: skipped for an empty format, without the sniffing
      library, or for a remote source; otherwise the sniffed type must be accepted by the
      extension's MIME entry. */
  function ValidateFileType(t: DeclaredType, source: string, env: Storage): (c: Check)
    requires !t.OtherType?
    ensures GetFormat(t) == "" || env.sniff.None? || env.isRemote(source) ==> c == Pass
    ensures c.Fail? ==> c.error.IncorrectFileType? || c.error == UnknownExtension(GetFormat(t))
    ensures c.Fail? && c.error.IncorrectFileType? ==>
              && env.sniff.Some? && GetFormat(t) in env.mimeTable
              && c.error == IncorrectFileType(env.mimeTable[GetFormat(t)], env.sniff.value(source))
              && !MimeAccepts(c.error.expected, c.error.got)
    ensures c == Pass <==>
              || GetFormat(t) == "" || env.sniff.None? || env.isRemote(source)
              || (GetFormat(t) in env.mimeTable && MimeAccepts(env.mimeTable[GetFormat(t)], env.sniff.value(source)))
    ensures c.Fail? && c.error.UnknownExtension? <==>
              GetFormat(t) != "" && env.sniff.Some? && !env.isRemote(source) && GetFormat(t) !in env.mimeTable
  {
    var fmt := GetFormat(t);
    if fmt == "" then Pass
    else if env.sniff.None? then Pass
    else if env.isRemote(source) then Pass
    else
      var sniffed := env.sniff.value(source);
      if fmt !in env.mimeTable then Fail(UnknownExtension(fmt))
      else if MimeAccepts(env.mimeTable[fmt], sniffed) then Pass
      else Fail(IncorrectFileType(env.mimeTable[fmt], sniffed))
  }

  /** A storage upload: `put_data(source, destination, headers)` or
      `put_raw_data(source, headers)` (which chooses the destination). */
  datatype UploadCall =
    | PutData(source: string, destination: string, headers: Metadata)
    | PutRawData(source: string, headers: Metadata)

  /** The location the storage collaborator reports for an upload. */
  function UploadLocation(call: UploadCall, env: Storage): string {
    match call
    case PutData(s, d, h) => env.putData(s, d, h)
    case PutRawData(s, h) => env.putRawData(s, h)
  }

  /** A literal `to_literal` returns, with the upload it performed (if any). */
  datatype Emitted = Emitted(literal: Literal, upload: Option<UploadCall>)

  /** The path `to_literal` reads: `str(value.path)` of a FlyteFile, `str(value)` otherwise. */
  function SourcePath(v: HostValue): string
    requires v.FileValue? || v.PathValue? || v.StrValue?
  {
    match v
    case FileValue(f) => f.path
    case PathValue(p) => p
    case StrValue(s) => s
  }

  /** `getattr(value, "metadata", None)`. */
  function MetadataOf(v: HostValue): Option<Metadata> {
    if v.FileValue? then v.file.metadata else None
  }

  /** `remote_path or None`: `False` and the empty string select no destination. */
  function ExplicitDestination(rp: RemotePath): Option<string> {
    if rp.Destination? && rp.uri != "" then Some(rp.uri) else None
  }

  /** The upload precedence, stated per value shape: a FlyteFile uploads unless it has a
      remote source, `remote_path` is False, its path is remote, the declared type is
      `os.PathLike`, or it runs locally without a `remote_path`; a Path uploads unless
      remote or declared `os.PathLike`; a str also stays put under local execution. */
  predicate WouldUpload(v: HostValue, t: DeclaredType, env: Storage) {
    match v
    case FileValue(f) =>
      && f.remoteSource.None? && !f.remotePath.NoUpload? && !env.isRemote(f.path)
      && t.FileType? && !(env.localExecution && f.remotePath.Unset?)
    case PathValue(p) => t.FileType? && !env.isRemote(p)
    case StrValue(s) => t.FileType? && !env.isRemote(s) && !env.localExecution
    case _ => false
  }

  /** The literal for a decided upload (or none). */
  function Emit(source: string, upload: bool, destination: Option<string>, metadata: Option<Metadata>,
                blobType: BlobType, env: Storage): Result<Emitted, FileError>
  {
    if upload then
      var headers := AdditionalHeaders(source);
      var call := if destination.Some? then PutData(source, destination.value, headers)
                  else PutRawData(source, headers);
      Ok(Emitted(BlobLiteral(blobType, env.unquote(UploadLocation(call, env)), metadata), Some(call)))
    else
      Ok(Emitted(BlobLiteral(blobType, source, metadata), None))
  }

  /** The FlyteFile branch of `to_literal`. */
  function FileToLiteral(f: FlyteFile, t: DeclaredType, env: Storage): Result<Emitted, FileError>
    requires !t.OtherType?
  {
    var blobType := SingleBlob(GetFormat(t));
    var source := f.path;
    var check := ValidateFileType(t, source, env);
    if check.Fail? then Err(check.error)
    else if f.remoteSource.Some? then
      Ok(Emitted(BlobLiteral(blobType, f.remoteSource.value, f.metadata), None))
    else
      var upload1 := !(f.remotePath.NoUpload? || env.isRemote(source));
      var upload2 := upload1 && !t.PathLikeType?;
      var upload3 := upload2 && !(env.localExecution && f.remotePath.Unset?);
      Emit(source, upload3, ExplicitDestination(f.remotePath), f.metadata, blobType, env)
  }

  /** The pathlib.Path and str branch of `to_literal`. */
  function PathToLiteral(source: string, isStr: bool, t: DeclaredType, env: Storage): Result<Emitted, FileError>
    requires !t.OtherType?
  {
    var blobType := SingleBlob(GetFormat(t));
    if t.FileType? then
      var check := ValidateFileType(t, source, env);
      if check.Fail? then Err(check.error)
      else if env.isRemote(source) then Emit(source, false, None, None, blobType, env)
      else if !isStr && !env.isFile(source) then Err(PathNotAFile(source))
      else if isStr && !env.isFile(source) then Err(StrNotAFile(source))
      else Emit(source, !(isStr && env.localExecution), None, None, blobType, env)
    else
      Emit(source, false, None, None, blobType, env)
  }

  /** `to_literal(value, t)`: always a single-file blob of `t`'s format carrying the
      value's metadata; the uri is the remote source, the source path, or the decoded
      location of the one upload the precedence table calls for. */
  function ToLiteral(v: HostValue, t: DeclaredType, env: Storage): (r: Result<Emitted, FileError>)
    ensures v.NoneValue? ==> r == Err(NoneValueGiven)
    ensures !v.NoneValue? && t.OtherType? ==> r == Err(IncorrectDeclaredType)
    ensures !v.NoneValue? && !t.OtherType? && v.OtherValue? ==> r == Err(UnsupportedValue)
    ensures r.Ok? ==>
              && !t.OtherType?
              && IsBlobLiteral(r.value.literal)
              && BlobOf(r.value.literal).blobType == BlobType(GetFormat(t), Single)
              && r.value.literal.metadata == MetadataOf(v)
    ensures r.Ok? ==> (r.value.upload.Some? <==> WouldUpload(v, t, env))
    ensures r.Ok? && r.value.upload.None? ==>
              BlobOf(r.value.literal).uri ==
                (if v.FileValue? && v.file.remoteSource.Some? then v.file.remoteSource.value else SourcePath(v))
    ensures r.Ok? && r.value.upload.Some? ==>
              && UploadSource(r.value.upload.value) == SourcePath(v)
              && UploadHeaders(r.value.upload.value) == AdditionalHeaders(SourcePath(v))
              && BlobOf(r.value.literal).uri == env.unquote(UploadLocation(r.value.upload.value, env))
              && (r.value.upload.value.PutData? <==> v.FileValue? && ExplicitDestination(v.file.remotePath).Some?)
              && (r.value.upload.value.PutData? ==>
                    r.value.upload.value.destination == ExplicitDestination(v.file.remotePath).value)
    ensures r.Err? ==> Kind(r.error) != TypeError && Kind(r.error) != FlyteAssertion
    ensures !v.NoneValue? && !v.OtherValue? && !t.OtherType? && ValidateFileType(t, SourcePath(v), env).Fail? ==>
              r == Err(ValidateFileType(t, SourcePath(v), env).error)
    ensures !v.NoneValue? && !v.OtherValue? && !t.OtherType? && ValidateFileType(t, SourcePath(v), env).Pass?
            && LocalFileMissing(v, t, env) ==>
              r == Err(if v.PathValue? then PathNotAFile(v.path) else StrNotAFile(v.s))
    ensures r.Ok? <==>
              && !v.NoneValue? && !v.OtherValue? && !t.OtherType?
              && ValidateFileType(t, SourcePath(v), env).Pass?
              && !LocalFileMissing(v, t, env)
  {
    if v.NoneValue? then Err(NoneValueGiven)
    else if t.OtherType? then Err(IncorrectDeclaredType)
    else
      match v
      case FileValue(f) => FileToLiteral(f, t, env)
      case PathValue(p) => PathToLiteral(p, false, t, env)
      case StrValue(s) => PathToLiteral(s, true, t, env)
      case OtherValue => Err(UnsupportedValue)
  }

  function UploadSource(c: UploadCall): string {
    match c
    case PutData(s, _, _) => s
    case PutRawData(s, _) => s
  }

  function UploadHeaders(c: UploadCall): Metadata {
    match c
    case PutData(_, _, h) => h
    case PutRawData(_, h) => h
  }

  /** A local Path or str, declared as a FlyteFile type, that names no existing file. */
  predicate LocalFileMissing(v: HostValue, t: DeclaredType, env: Storage) {
    (v.PathValue? || v.StrValue?) && t.FileType? && !env.isRemote(SourcePath(v)) && !env.isFile(SourcePath(v))
  }

  /** The size of a literal's decoding path, for the mutual recursion of
      `ToPythonValue` and `DictToFlyteFile`. */
  function Rank(lv: Literal): nat {
    if lv.scalar.Some? && (lv.scalar.value.BinaryScalar? || lv.scalar.value.GenericScalar?) then 1 else 0
  }

  /** `to_python_value(lv, expected)`: a binary scalar goes through its packing tag, a
      generic scalar with a non-empty struct through its path record, anything else
      (an empty struct included) must be a blob. */
  function ToPythonValue(lv: Literal, expected: DeclaredType, env: Storage): (r: Result<FlyteFile, FileError>)
    decreases Rank(lv), 1
    ensures lv.scalar.Some? && lv.scalar.value.BinaryScalar? && lv.scalar.value.tag != Messagepack ==>
              r == Err(UnsupportedBinaryFormat(lv.scalar.value.tag))
    ensures (lv.scalar.None? || lv.scalar.value.OtherScalar? || EmptyStruct(lv.scalar.value)) ==> r == Err(NotABlob)
    ensures lv.scalar.Some? && lv.scalar.value.GenericScalar? && !EmptyStruct(lv.scalar.value) ==>
              r == DictToFlyteFile(lv.scalar.value.payload, expected, env)
    ensures IsBlobLiteral(lv) ==> r == BlobToPythonValue(BlobOf(lv), lv.metadata, expected, env)
  {
    if lv.scalar.Some? && lv.scalar.value.BinaryScalar? then
      FromBinaryIdl(lv.scalar.value.tag, lv.scalar.value.payload, expected, env)
    else if lv.scalar.Some? && lv.scalar.value.GenericScalar? && !EmptyStruct(lv.scalar.value) then
      DictToFlyteFile(lv.scalar.value.payload, expected, env)
    else if !IsBlobLiteral(lv) then Err(NotABlob)
    else BlobToPythonValue(BlobOf(lv), lv.metadata, expected, env)
  }

  /** `from_binary_idl`: only message-pack payloads decode to a path record. */
  function FromBinaryIdl(tag: string, payload: PathRecord, expected: DeclaredType, env: Storage)
    : (r: Result<FlyteFile, FileError>)
    decreases 1, 0
    ensures tag != Messagepack ==> r == Err(UnsupportedBinaryFormat(tag))
    ensures tag == Messagepack ==> r == DictToFlyteFile(payload, expected, env)
  {
    if tag == Messagepack then DictToFlyteFile(payload, expected, env)
    else Err(UnsupportedBinaryFormat(tag))
  }

  /** `dict_to_flyte_file`: a record without a path is refused; otherwise it is read as a
      single-file blob literal of empty format carrying the record's metadata. */
  function DictToFlyteFile(d: PathRecord, expected: DeclaredType, env: Storage): (r: Result<FlyteFile, FileError>)
    decreases 0, 2
    ensures d.path.None? ==> r == Err(MissingPath)
    ensures d.path.Some? ==> r == BlobToPythonValue(Blob(SingleBlob(""), d.path.value), d.metadata, expected, env)
  {
    if d.path.None? then Err(MissingPath)
    else ToPythonValue(BlobLiteral(SingleBlob(""), d.path.value, d.metadata), expected, env)
  }

  /** The blob case of `to_python_value`: refuses non-SINGLE blobs, local uris that are not
      files and foreign expected types; wraps a local uri directly; for a remote uri builds
      an undownloaded file that remembers the uri as its remote source. */
  function BlobToPythonValue(b: Blob, metadata: Option<Metadata>, expected: DeclaredType, env: Storage)
    : (r: Result<FlyteFile, FileError>)
    ensures b.blobType.dimensionality != Single ==> r == Err(NotAFile(b.uri))
    ensures b.blobType.dimensionality == Single && !env.isRemote(b.uri) && !env.isFile(b.uri) ==>
              r == Err(MissingLocalFile(b.uri))
    ensures b.blobType.dimensionality == Single && (env.isRemote(b.uri) || env.isFile(b.uri)) ==>
              (r.Err? <==> expected.OtherType?)
    ensures r.Err? ==> r.error in {NotAFile(b.uri), MissingLocalFile(b.uri), NotAFileType}
    ensures r.Ok? ==> r.value.metadata == metadata && !r.value.downloaded && r.value.remotePath == Unset
    ensures r.Ok? && expected.PathLikeType? ==> r.value == NewFile(BaseFile, b.uri, Noop, Unset, metadata, env)
    ensures r.Ok? && !env.isRemote(b.uri) ==>
              && r.value.path == b.uri && r.value.localPath == b.uri
              && r.value.remoteSource.None? && r.value.downloader == Noop
              && r.value.cls == (if expected.FileType? then expected.cls else BaseFile)
    ensures r.Ok? && env.isRemote(b.uri) ==> r.value.remoteSource == Some(b.uri)
    ensures r.Ok? && env.isRemote(b.uri) && expected.FileType? ==>
              && r.value.path == env.randomLocalPath(b.uri)
              && r.value.cls == ClassGetItem(Some(Extension(expected.cls)))
  {
    if b.blobType.dimensionality != Single then Err(NotAFile(b.uri))
    else if !env.isRemote(b.uri) && !env.isFile(b.uri) then Err(MissingLocalFile(b.uri))
    else if expected.PathLikeType? then Ok(NewFile(BaseFile, b.uri, Noop, Unset, metadata, env))
    else if expected.OtherType? then Err(NotAFileType)
    else if !env.isRemote(b.uri) then Ok(NewFile(expected.cls, b.uri, Noop, Unset, metadata, env))
    else
      var local := env.randomLocalPath(b.uri);
      var cls := ClassGetItem(Some(Extension(expected.cls)));
      var f := NewFile(cls, local, Fetch(b.uri, local), Unset, metadata, env);
      Ok(f.(remoteSource := Some(b.uri)))
  }

  /** `guess_python_type(lt)`: a single-file blob of any format but the pickle one is
      reversed to `FlyteFile[format]`; everything else is refused. */
  function FileGuessPythonType(lt: LiteralType): (r: Result<FileClass, FileError>)
    ensures r.Ok? <==> lt.blob.Some? && lt.blob.value.dimensionality == Single
                       && lt.blob.value.format != Pickle.PythonPickleFormat
    ensures r.Err? ==> r.error == CannotReverse
    ensures r.Ok? ==> (r.value == BaseFile <==> lt.blob.value.format == "")
    ensures r.Ok? && r.value.FormatFile? ==> Extension(r.value) == Normalize(lt.blob.value.format)
  {
    if lt.blob.Some? && lt.blob.value.dimensionality == Single
       && lt.blob.value.format != Pickle.PythonPickleFormat
    then Ok(ClassGetItem(Some(lt.blob.value.format)))
    else Err(CannotReverse)
  }
}

=== FILE: flyte_file.dfy ===
/** The `FlyteFile` value object and its download-once local-path accessor
    (flytekit/types/file/file.py, `FlyteFile.__init__`, `__fspath__`, `download`). */
module FlyteFileValue {
  import opened Outcomes
  import opened Literals
  import opened FileFormat

  /** The expected MIME type(s) of an extension: one string, or a list of accepted ones. */
  datatype MimeEntry = OneMime(mime: string) | ManyMimes(mimes: seq<string>)

  /** The storage collaborator and execution context, as uninterpreted functions:
      `isRemote` (file_access.is_remote), `isFile` (os.path.isfile / Path.is_file),
      `randomLocalPath` (get_random_local_path), `putData` / `putRawData` (the locations
      the uploads report), `unquote` (percent-decoding), `sniff` (libmagic's MIME sniffer,
      `None` when the library is not installed), `mimeTable` (extension to MIME table). */
  datatype Storage = Storage(
    isRemote: string -> bool,
    isFile: string -> bool,
    randomLocalPath: string -> string,
    putData: (string, string, Metadata) -> string,
    putRawData: (string, Metadata) -> string,
    unquote: string -> string,
    localExecution: bool,
    sniff: Option<string -> string>,
    mimeTable: map<string, MimeEntry>)

  /** Scratch paths handed out for downloads are local. */
  ghost predicate ScratchPathsAreLocal(env: Storage) {
    forall p :: !env.isRemote(env.randomLocalPath(p))
  }

  /** The `remote_path` argument: `None`, `False` (never upload) or a destination. */
  datatype RemotePath = Unset | NoUpload | Destination(uri: string)

  /** The downloader bound into a file: a no-op, or `get_data(remote, local)`. */
  datatype Downloader = Noop | Fetch(remote: string, local: string)

  /** A `FlyteFile` instance of class `cls`; `localPath` is `_local_path` and
      `downloaded` is `_downloaded`. */
  datatype FlyteFile = FlyteFile(
    cls: FileClass,
    path: string,
    metadata: Option<Metadata>,
    remotePath: RemotePath,
    remoteSource: Option<string>,
    localPath: string,
    downloader: Downloader,
    downloaded: bool)

  /** `cls(path, downloader, remote_path, metadata)`: a remote path gets a scratch local
      path and a downloader bound to it, and no I/O happens at construction. */
  function NewFile(cls: FileClass, path: string, downloader: Downloader, remotePath: RemotePath,
                   metadata: Option<Metadata>, env: Storage): (f: FlyteFile)
    ensures f.cls == cls && f.path == path && f.metadata == metadata && f.remotePath == remotePath
    ensures !f.downloaded
    ensures env.isRemote(path) ==>
              && f.remoteSource == Some(path)
              && f.localPath == env.randomLocalPath(path)
              && f.downloader == Fetch(path, f.localPath)
    ensures !env.isRemote(path) ==>
              f.remoteSource == None && f.localPath == path && f.downloader == downloader
  {
    if env.isRemote(path) then
      var local := env.randomLocalPath(path);
      FlyteFile(cls, path, metadata, remotePath, Some(path), local, Fetch(path, local), false)
    else
      FlyteFile(cls, path, metadata, remotePath, None, path, downloader, false)
  }

  /** What one access of the local path did: the file afterwards, the path returned
      (`None` when the downloader raised) and whether the downloader ran. */
  datatype Access = Access(file: FlyteFile, path: Option<string>, ran: bool)

  /** `__fspath__` / `download`: run the downloader only while not yet downloaded, mark the
      file downloaded once it returns, and hand back the local path. `fetchSucceeds` is
      the outcome of the storage fetch; the no-op downloader always returns. */
  function FsPath(f: FlyteFile, fetchSucceeds: bool): (a: Access)
    ensures a.ran <==> !f.downloaded
    ensures a.path.Some? ==> a.path.value == f.localPath
    ensures a.path.None? <==> a.ran && f.downloader.Fetch? && !fetchSucceeds
    ensures a.file == f.(downloaded := f.downloaded || a.path.Some?)
  {
    if f.downloaded then Access(f, Some(f.localPath), false)
    else if f.downloader.Fetch? && !fetchSucceeds then Access(f, None, true)
    else Access(f.(downloaded := true), Some(f.localPath), true)
  }

  /** Accessing the local path again after a successful access runs nothing and returns
      the same path. */
  lemma SecondAccessRunsNothing(f: FlyteFile, first: bool, second: bool)
    requires FsPath(f, first).path.Some?
    ensures var a := FsPath(FsPath(f, first).file, second);
            !a.ran && a.path == Some(f.localPath) && a.file == FsPath(f, first).file
  {
  }

  /** Accessing the local path once per entry of `outcomes` (each the outcome the fetch
      would have, if it ran): the downloader succeeds at most once over all accesses,
      never again once the file is downloaded, and every access that returns yields the
      local path. */
  method AccessRepeatedly(f: FlyteFile, outcomes: seq<bool>)
    returns (g: FlyteFile, paths: seq<Option<string>>, downloads: nat)
    ensures downloads <= 1
    ensures f.downloaded ==> downloads == 0 && g == f
    ensures g.downloaded <==> f.downloaded || downloads == 1
    ensures g == f.(downloaded := g.downloaded)
    ensures |paths| == |outcomes|
    ensures forall i :: 0 <= i < |paths| && paths[i].Some? ==> paths[i].value == f.localPath
    ensures downloads == 1 ==> exists i :: 0 <= i < |paths| && paths[i].Some?
  {
    g := f;
    paths := [];
    downloads := 0;
    var i := 0;
    while i < |outcomes|
      invariant 0 <= i <= |outcomes| && |paths| == i
      invariant downloads <= 1
      invariant f.downloaded ==> downloads == 0 && g == f
      invariant g.downloaded <==> f.downloaded || downloads == 1
      invariant g == f.(downloaded := g.downloaded)
      invariant forall k :: 0 <= k < i && paths[k].Some? ==> paths[k].value == f.localPath
      invariant downloads == 1 ==> exists k :: 0 <= k < i && paths[k].Some?
    {
      var a := FsPath(g, outcomes[i]);
      if a.ran && a.path.Some? {
        downloads := downloads + 1;
      }
      g := a.file;
      paths := paths + [a.path];
      assert forall k :: 0 <= k < i ==> paths[k] == paths[..i][k];
      assert a.path.Some? ==> paths[i].Some?;
      i := i + 1;
    }
  }

  /** A file constructed from a remote path downloads from that path into its scratch path
      on first access, and the original path is untouched. */
  lemma RemoteFileDownloadsOnFirstAccess(cls: FileClass, path: string, d: Downloader,
                                         rp: RemotePath, md: Option<Metadata>, env: Storage)
    requires env.isRemote(path)
    ensures var f := NewFile(cls, path, d, rp, md, env);
            var a := FsPath(f, true);
            && a.ran && a.path == Some(env.randomLocalPath(path)) && a.file.downloaded
            && f.downloader == Fetch(path, a.path.value) && a.file.path == path
  {
  }
}

=== FILE: guess_disjoint.dfy ===
/** The pickle and file transformers split single-file blob types between them: the
    reserved pickle format goes to the pickle transformer, every other format to the file
    transformer (flytekit/types/pickle/pickle.py and flytekit/types/file/file.py,
    `guess_python_type`). */
module GuessDisjoint {
  import opened Outcomes
  import opened Literals
  import Pickle
  import FileTransformer

  /** For a single-file blob type exactly one of the two reverse lookups succeeds. */
  lemma ExactlyOneClaimsSingleBlobs(lt: LiteralType)
    requires lt.blob.Some? && lt.blob.value.dimensionality == Single
    ensures Pickle.PickleGuessPythonType(lt).Ok? != FileTransformer.FileGuessPythonType(lt).Ok?
  {
  }

  /** Multi-part blobs and non-blob types are claimed by neither. */
  lemma NeitherClaimsOtherTypes(lt: LiteralType)
    requires lt.blob.None? || lt.blob.value.dimensionality != Single
    ensures Pickle.PickleGuessPythonType(lt).Err? && FileTransformer.FileGuessPythonType(lt).Err?
  {
  }

  /** The literal type of a pickled value is never claimed by the file transformer, and
      the literal type of a file class is never claimed by the pickle transformer unless
      its extension is the reserved format. */
  lemma LiteralTypesStayWithTheirOwner(t: Pickle.PyType, d: FileTransformer.DeclaredType)
    requires !d.OtherType?
    ensures FileTransformer.FileGuessPythonType(Pickle.PickleLiteralType(t)).Err?
    ensures (Pickle.PickleGuessPythonType(FileTransformer.FileLiteralType(d)).Ok?
             <==> FileTransformer.GetFormat(d) == Pickle.PythonPickleFormat)
  {
  }
}

=== FILE: literals.dfy ===
/** The wire-stable literal model (blob literals, binary and generic scalars, literal types). */
module Literals {
  import opened Outcomes

  /** Free-form string-keyed metadata carried by literals and file values. */
  type Metadata = map<string, string>

  datatype Dimensionality = Single | Multipart

  /** `BlobType(format, dimensionality)`. */
  datatype BlobType = BlobType(format: string, dimensionality: Dimensionality)

  /** A literal type; `blob` is `None` for every non-blob kind of type. */
  datatype LiteralType = LiteralType(blob: Option<BlobType>, metadata: Option<Metadata>)

  /** `Blob(metadata=BlobMetadata(type=blobType), uri=uri)`. */
  datatype Blob = Blob(blobType: BlobType, uri: string)

  /** The `{"path", "metadata"}` mapping a binary or generic payload decodes to. */
  datatype PathRecord = PathRecord(path: Option<string>, metadata: Option<Metadata>)

  /** The scalar shapes a file literal can arrive in. A binary scalar carries its packing
      tag and the mapping its payload decodes to; a generic scalar carries the mapping its
      struct converts to and whether the struct holds any key besides a non-null `path`
      or `metadata`; every other scalar (primitives, ...) is `OtherScalar`. */
  datatype Scalar =
    | BlobScalar(blob: Blob)
    | BinaryScalar(tag: string, payload: PathRecord)
    | GenericScalar(payload: PathRecord, otherKeys: bool)
    | OtherScalar

  /** A generic scalar whose struct has no keys at all, which Python treats as false. */
  predicate EmptyStruct(s: Scalar) {
    s.GenericScalar? && s.payload.path.None? && s.payload.metadata.None? && !s.otherKeys
  }

  /** A literal; `scalar` is `None` for collections and maps. */
  datatype Literal = Literal(scalar: Option<Scalar>, metadata: Option<Metadata>)

  /** The type tag of a single-file blob literal of the given format. */
  function SingleBlob(format: string): BlobType {
    BlobType(format, Single)
  }

  /** A blob literal with the given type, uri and literal metadata. */
  function BlobLiteral(t: BlobType, uri: string, metadata: Option<Metadata>): (l: Literal)
    ensures IsBlobLiteral(l)
  {
    Literal(Some(BlobScalar(Blob(t, uri))), metadata)
  }

  predicate IsBlobLiteral(l: Literal) {
    l.scalar.Some? && l.scalar.value.BlobScalar?
  }

  function BlobOf(l: Literal): Blob
    requires IsBlobLiteral(l)
  {
    l.scalar.value.blob
  }
}

=== FILE: node.dfy ===
/** DAG nodes, upstream edges and the override protocol (flytekit/core/node.py).
    Nodes and the entities they run live in an arena addressed by index; upstream lists
    hold node handles, and a node's `id` is an ordinary field that overrides may rewrite. */
module Nodes {
  import opened Outcomes

  /** An override argument: a static value, or a promise (an unresolved output of another
      node), which no static configuration field may hold. */
  datatype Arg<+T> = Static(value: T) | Promise(source: string)

  /** A `datetime.timedelta`. */
  datatype Duration = Duration(microseconds: int)

  function Seconds(n: int): Duration {
    Duration(n * 1000000)
  }

  datatype RetryStrategy = RetryStrategy(retries: int)

  /** The node metadata fields overrides write. */
  datatype NodeMetadata = NodeMetadata(
    name: string,
    timeout: Duration,
    retries: RetryStrategy,
    interruptible: Option<bool>,
    cacheable: Option<bool>,
    cacheVersion: string,
    cacheSerializable: bool)

  datatype ResourceName = Cpu | Memory | Gpu | EphemeralStorage

  /** A `Resources` request or limit set; each field may be absent. */
  datatype Resources = Resources(
    cpu: Option<Arg<string>>,
    mem: Option<Arg<string>>,
    gpu: Option<Arg<string>>,
    ephemeralStorage: Option<Arg<string>>)

  datatype ResourceEntry = ResourceEntry(name: ResourceName, value: Arg<string>)

  /** The resources model a node carries: request and limit entries. */
  datatype ResourceModel = ResourceModel(requests: seq<ResourceEntry>, limits: seq<ResourceEntry>)

  datatype Accelerator = Accelerator(device: string)
  datatype SharedMemory = DefaultSharedMemory | SharedMemorySize(size: string)
  datatype ExtendedResources = ExtendedResources(accelerator: Option<Accelerator>, sharedMemory: Option<SharedMemory>)
  datatype PodTemplate = PodTemplate(name: string)
  datatype Alias = Alias(variable: string, alias: string)
  datatype Binding = Binding(variable: string, source: string)

  /** A task configuration object, known by its class name and contents. */
  datatype TaskConfig = TaskConfig(typeName: string, settings: string)

  type NodeRef = nat
  type EntityRef = nat

  /** What a node runs: a plain task or workflow, a legacy map task (which runs
      `runTask`), or an array-node map task (which runs `pythonFunctionTask` and carries
      the metadata of each mapped sub-node). */
  datatype EntityKind =
    | PlainEntity
    | LegacyMapTask(runTask: EntityRef)
    | ArrayNodeMapTask(pythonFunctionTask: EntityRef, subNodeMetadata: NodeMetadata)

  datatype Entity = Entity(kind: EntityKind, taskConfig: Option<TaskConfig>)

  datatype Node = Node(
    id: string,
    metadata: NodeMetadata,
    bindings: seq<Binding>,
    upstream: seq<NodeRef>,
    entity: EntityRef,
    aliases: Option<seq<Alias>>,
    resources: Option<ResourceModel>,
    extendedResources: Option<ExtendedResources>,
    containerImage: Option<string>,
    podTemplate: Option<PodTemplate>)

  /** The arena: every node and every entity of a graph. */
  datatype Graph = Graph(nodes: seq<Node>, entities: seq<Entity>)

  predicate KindRefsIn(k: EntityKind, bound: nat) {
    match k
    case PlainEntity => true
    case LegacyMapTask(r) => r < bound
    case ArrayNodeMapTask(r, _) => r < bound
  }

  predicate NodeRefsIn(node: Node, nodeCount: nat, entityCount: nat) {
    node.entity < entityCount && forall u :: u in node.upstream ==> u < nodeCount
  }

  /** Every handle stored in the arena points into it. */
  predicate Valid(g: Graph) {
    && (forall i :: 0 <= i < |g.nodes| ==> NodeRefsIn(g.nodes[i], |g.nodes|, |g.entities|))
    && (forall e :: 0 <= e < |g.entities| ==> KindRefsIn(g.entities[e].kind, |g.entities|))
  }

  datatype NodeError =
    | MissingNodeId
    | PromiseIn(location: string)
    | AliasesNotDict
    | ResourcesWithRequestsOrLimits
    | TaskConfigTypeChanged
    | InvalidTimeout
    | LegacyCacheParameters
    | MissingCacheVersion

  datatype ErrorKind = ValueError | AssertionError

  /** The exception class each failure is raised as. */
  function Kind(e: NodeError): ErrorKind {
    match e
    case MissingNodeId => ValueError
    case PromiseIn(_) => AssertionError
    case AliasesNotDict => AssertionError
    case ResourcesWithRequestsOrLimits => ValueError
    case TaskConfigTypeChanged => ValueError
    case InvalidTimeout => ValueError
    case LegacyCacheParameters => ValueError
    case MissingCacheVersion => ValueError
  }

  /** The helpers node.py calls but does not define: `_dnsify`,
      `ResourceSpec.from_multiple_resource` (resources to requests and limits) and
      `construct_extended_resources`. */
  datatype OverrideEnv = OverrideEnv(
    dnsify: string -> string,
    splitResources: Resources -> (Option<Resources>, Option<Resources>),
    extendedResources: (Option<Accelerator>, Option<SharedMemory>) -> Option<ExtendedResources>)

  /** The first promise among resource entries, reported at `location`. */
  function AssertNoPromisesIn(es: seq<ResourceEntry>, location: string): (r: Option<NodeError>)
    ensures r.None? <==> forall i :: 0 <= i < |es| ==> es[i].value.Static?
    ensures r.Some? ==> r.value == PromiseIn(location)
  {
    if es == [] then None
    else if es[0].value.Promise? then Some(PromiseIn(location))
    else AssertNoPromisesIn(es[1..], location)
  }

  /** `assert_no_promises_in_resources`: requests are checked before limits. */
  function AssertNoPromisesInResources(r: Option<ResourceModel>): (e: Option<NodeError>)
    ensures e.None? <==> r.None? || ((forall i :: 0 <= i < |r.value.requests| ==> r.value.requests[i].value.Static?)
                                     && (forall i :: 0 <= i < |r.value.limits| ==> r.value.limits[i].value.Static?))
    ensures e.Some? ==> e == Some(PromiseIn("resources.requests")) || e == Some(PromiseIn("resources.limits"))
    ensures e == Some(PromiseIn("resources.limits")) ==>
              forall i :: 0 <= i < |r.value.requests| ==> r.value.requests[i].value.Static?
  {
    if r.None? then None
    else
      var q := AssertNoPromisesIn(r.value.requests, "resources.requests");
      if q.Some? then q else AssertNoPromisesIn(r.value.limits, "resources.limits")
  }

  /** The position of each resource in the fixed emission order. */
  function Position(n: ResourceName): nat {
    match n
    case Cpu => 0
    case Memory => 1
    case Gpu => 2
    case EphemeralStorage => 3
  }

  function Field(r: Resources, n: ResourceName): Option<Arg<string>> {
    match n
    case Cpu => r.cpu
    case Memory => r.mem
    case Gpu => r.gpu
    case EphemeralStorage => r.ephemeralStorage
  }

  function EntryFor(r: Resources, n: ResourceName): seq<ResourceEntry> {
    if Field(r, n).Some? then [ResourceEntry(n, Field(r, n).value)] else []
  }

  /** `_convert_resource_overrides`: one entry per present field, in the order CPU,
      memory, GPU, ephemeral storage. */
  function ConvertResourceOverrides(r: Option<Resources>): (es: seq<ResourceEntry>)
    ensures r.None? ==> es == []
    ensures |es| <= 4
    ensures forall i, j :: 0 <= i < j < |es| ==> Position(es[i].name) < Position(es[j].name)
    ensures forall i :: 0 <= i < |es| ==> r.Some? && Field(r.value, es[i].name) == Some(es[i].value)
    ensures r.Some? ==> forall n :: Field(r.value, n).Some? ==> exists i :: 0 <= i < |es| && es[i].name == n
  {
    if r.None? then []
    else
      var v := r.value;
      EntriesCoverFields(v);
      Entries(v)
  }

  function Entries(v: Resources): seq<ResourceEntry> {
    EntryFor(v, Cpu) + EntryFor(v, Memory) + EntryFor(v, Gpu) + EntryFor(v, EphemeralStorage)
  }

  lemma EntriesCoverFields(v: Resources)
    ensures forall n :: Field(v, n).Some? ==> ResourceEntry(n, Field(v, n).value) in Entries(v)
  {
    var a, b, c := EntryFor(v, Cpu), EntryFor(v, Memory), EntryFor(v, Gpu);
    var es := Entries(v);
    forall n | Field(v, n).Some?
      ensures ResourceEntry(n, Field(v, n).value) in es
    {
      var e := ResourceEntry(n, Field(v, n).value);
      if n == Cpu {
        assert es[0] == e;
      } else if n == Memory {
        assert es[|a|] == e;
      } else if n == Gpu {
        assert es[|a| + |b|] == e;
      } else {
        assert es[|a| + |b| + |c|] == e;
      }
    }
  }

  /** `Node(id, metadata, bindings, upstream_nodes, flyte_entity)` allocated in the arena:
      a missing id is refused; otherwise the node gets the DNS-safe form of the id and no
      overrides, at a fresh handle, and nothing else in the arena changes. */
  function NewNode(g: Graph, id: Option<string>, metadata: NodeMetadata, bindings: seq<Binding>,
                   upstream: seq<NodeRef>, entity: EntityRef, dnsify: string -> string)
    : (r: Result<(Graph, NodeRef), NodeError>)
    requires Valid(g) && entity < |g.entities| && forall u :: u in upstream ==> u < |g.nodes|
    ensures id.None? <==> r == Err(MissingNodeId)
    ensures r.Ok? ==>
              var (g', n) := r.value;
              && Valid(g') && n == |g.nodes| && |g'.nodes| == n + 1 && g'.nodes[..n] == g.nodes && g'.entities == g.entities
              && g'.nodes[n].id == dnsify(id.value) && g'.nodes[n].upstream == upstream
              && g'.nodes[n].metadata == metadata && g'.nodes[n].entity == entity
              && g'.nodes[n].bindings == bindings
              && g'.nodes[n].aliases.None? && g'.nodes[n].resources.None?
              && g'.nodes[n].extendedResources.None? && g'.nodes[n].containerImage.None?
              && g'.nodes[n].podTemplate.None?
  {
    if id.None? then Err(MissingNodeId)
    else
      var node := Node(dnsify(id.value), metadata, bindings, upstream, entity, None, None, None, None, None);
      Ok((Graph(g.nodes + [node], g.entities), |g.nodes|))
  }

  /** `a.runs_before(b)`: `a` joins `b`'s upstream list unless already there; only `b`
      changes. */
  function RunsBefore(g: Graph, a: NodeRef, b: NodeRef): (g': Graph)
    requires Valid(g) && a < |g.nodes| && b < |g.nodes|
    ensures Valid(g') && |g'.nodes| == |g.nodes| && g'.entities == g.entities
    ensures a in g'.nodes[b].upstream
    ensures a in g.nodes[b].upstream ==> g' == g
    ensures a !in g.nodes[b].upstream ==> g'.nodes[b].upstream == g.nodes[b].upstream + [a]
    ensures g'.nodes[b] == g.nodes[b].(upstream := g'.nodes[b].upstream)
    ensures forall m :: 0 <= m < |g.nodes| && m != b ==> g'.nodes[m] == g.nodes[m]
  {
    var node := g.nodes[b];
    if a in node.upstream then g
    else Graph(g.nodes[b := node.(upstream := node.upstream + [a])], g.entities)
  }

  /** `a >> b`: `a.runs_before(b)`, answering `b` so that chains continue from it. */
  function RightShift(g: Graph, a: NodeRef, b: NodeRef): (r: (Graph, NodeRef))
    requires Valid(g) && a < |g.nodes| && b < |g.nodes|
    ensures r.1 == b && Valid(r.0) && |r.0.nodes| == |g.nodes| && r.0.entities == g.entities
    ensures a in r.0.nodes[b].upstream
    ensures a in g.nodes[b].upstream ==> r.0 == g
    ensures a !in g.nodes[b].upstream ==> r.0.nodes[b].upstream == g.nodes[b].upstream + [a]
    ensures r.0.nodes[b] == g.nodes[b].(upstream := r.0.nodes[b].upstream)
    ensures forall m :: 0 <= m < |g.nodes| && m != b ==> r.0.nodes[m] == g.nodes[m]
  {
    (RunsBefore(g, a, b), b)
  }

  /** The `id`s of a node's upstream nodes, in list order. */
  function UpstreamIds(g: Graph, n: NodeRef): (ids: seq<string>)
    requires Valid(g) && n < |g.nodes|
    ensures |ids| == |g.nodes[n].upstream|
    ensures forall i :: 0 <= i < |ids| ==> g.nodes[n].upstream[i] < |g.nodes| && ids[i] == g.nodes[g.nodes[n].upstream[i]].id
  {
    var ups := g.nodes[n].upstream;
    assert forall i :: 0 <= i < |ups| ==> ups[i] in ups;
    seq(|ups|, i requires 0 <= i < |ups| => g.nodes[ups[i]].id)
  }

  /** `node.run_entity`: the task a legacy map task runs, the function task of an
      array-node map task, or the node's entity itself. */
  function RunEntity(g: Graph, n: NodeRef): (e: EntityRef)
    requires Valid(g) && n < |g.nodes|
    ensures e < |g.entities|
    ensures g.entities[g.nodes[n].entity].kind.PlainEntity? ==> e == g.nodes[n].entity
    ensures g.entities[g.nodes[n].entity].kind.LegacyMapTask? ==> e == g.entities[g.nodes[n].entity].kind.runTask
    ensures g.entities[g.nodes[n].entity].kind.ArrayNodeMapTask? ==>
              e == g.entities[g.nodes[n].entity].kind.pythonFunctionTask
  {
    var fe := g.nodes[n].entity;
    assert KindRefsIn(g.entities[fe].kind, |g.entities|);
    match g.entities[fe].kind
    case PlainEntity => fe
    case LegacyMapTask(r) => r
    case ArrayNodeMapTask(r, _) => r
  }

  /** A `datetime.timedelta` or int given as `timeout`, or the argument left out. */
  datatype TimeoutArg = TimeoutOmitted | TimeoutNone | TimeoutSeconds(seconds: int) | TimeoutDelta(delta: Duration) | TimeoutOther

  /** The `aliases` argument: a dict (its items in order) or anything else. */
  datatype AliasesArg = AliasDict(entries: seq<(string, string)>) | AliasesOther

  /** The fields of a `Cache` object that overrides read. */
  datatype CachePolicy = CachePolicy(version: Option<string>, serialize: bool)

  /** The `cache` argument: a bool or a `Cache` object. */
  datatype CacheArg = CacheFlag(flag: bool) | CacheObject(policy: CachePolicy)

  /** The arguments of `with_overrides`; `None` is an argument left at its default. */
  datatype OverrideArgs = OverrideArgs(
    nodeName: Option<Arg<string>>,
    aliases: Option<AliasesArg>,
    requests: Option<Resources>,
    limits: Option<Resources>,
    timeout: TimeoutArg,
    retries: Option<Arg<int>>,
    interruptible: Option<Arg<bool>>,
    name: Option<string>,
    taskConfig: Option<TaskConfig>,
    containerImage: Option<Arg<string>>,
    accelerator: Option<Arg<Accelerator>>,
    cache: Option<Arg<CacheArg>>,
    sharedMemory: Option<Arg<SharedMemory>>,
    podTemplate: Option<Arg<PodTemplate>>,
    resources: Option<Resources>,
    cacheVersion: Option<Arg<string>>,
    cacheSerialize: Option<Arg<bool>>)

  /** `with_overrides()` called with no arguments. */
  function NoOverrides(): OverrideArgs {
    OverrideArgs(None, None, None, None, TimeoutOmitted, None, None, None, None, None, None, None, None, None, None, None, None)
  }

  /** The outcome of a sequence of in-place writes: the state reached, and the error that
      stopped the sequence if one did. Writes made before the error are kept. */
  datatype Partial<+T> = Done(value: T) | Stopped(value: T, error: NodeError)

  predicate Promised<T>(o: Option<Arg<T>>) {
    o.Some? && o.value.Promise?
  }

  function Unwrap<T>(o: Option<Arg<T>>): Option<T>
    requires !Promised(o)
  {
    if o.Some? then Some(o.value.value) else None
  }

  /** The objects an override writes to: the node, the task configuration of its run
      entity and, for an array-node map task, the sub-node metadata. */
  datatype OverrideTarget = OverrideTarget(node: Node, runConfig: Option<TaskConfig>, subNodeMetadata: Option<NodeMetadata>)

  /** The metadata that metadata overrides write to. */
  function MetadataOf(v: OverrideTarget): NodeMetadata {
    if v.subNodeMetadata.Some? then v.subNodeMetadata.value else v.node.metadata
  }

  function WithMetadata(v: OverrideTarget, md: NodeMetadata): OverrideTarget {
    if v.subNodeMetadata.Some? then v.(subNodeMetadata := Some(md)) else v.(node := v.node.(metadata := md))
  }

  function OverrideTimeout(md: NodeMetadata, t: TimeoutArg): (r: Partial<NodeMetadata>)
    ensures r.value == md.(timeout := r.value.timeout)
  {
    match t
    case TimeoutOmitted => Done(md)
    case TimeoutNone => Done(md.(timeout := Duration(0)))
    case TimeoutSeconds(n) => Done(md.(timeout := Seconds(n)))
    case TimeoutDelta(d) => Done(md.(timeout := d))
    case TimeoutOther => Stopped(md, InvalidTimeout)
  }

  /** The `serialize` of the default `Cache` built for `cache=True`. A promise here is
      never read: it comes with a legacy parameter, which is refused. */
  function DefaultSerialize(serialize: Option<Arg<bool>>): bool {
    if serialize.Some? && serialize.value.Static? then serialize.value.value else false
  }

  /** The cache argument after `cache=True` without a version has become a default
      `Cache`. */
  function EffectiveCache(cache: Option<Arg<CacheArg>>, version: Option<Arg<string>>, serialize: Option<Arg<bool>>): Option<CacheArg>
    requires !Promised(cache)
  {
    if cache == Some(Static(CacheFlag(true))) && version.None? then Some(CacheObject(CachePolicy(None, DefaultSerialize(serialize))))
    else Unwrap(cache)
  }

  /** `m` differs from `md` at most in its cache fields. */
  predicate CacheFieldsOnly(md: NodeMetadata, m: NodeMetadata) {
    m == md.(cacheable := m.cacheable, cacheVersion := m.cacheVersion, cacheSerializable := m.cacheSerializable)
  }

  /** The final writes: `cacheable` always, then version and serialisation when given. */
  function WriteCache(md: NodeMetadata, cacheable: Option<bool>, version: Option<Arg<string>>, serialize: Option<Arg<bool>>)
    : (r: Partial<NodeMetadata>)
    ensures CacheFieldsOnly(md, r.value)
  {
    var m1 := md.(cacheable := cacheable);
    if Promised(version) then Stopped(m1, PromiseIn("cache_version"))
    else
      var m2 := if version.Some? then m1.(cacheVersion := version.value.value) else m1;
      if Promised(serialize) then Stopped(m2, PromiseIn("cache_serialize"))
      else Done(if serialize.Some? then m2.(cacheSerializable := serialize.value.value) else m2)
  }

  function OverrideCache(md: NodeMetadata, cache: Option<Arg<CacheArg>>, version: Option<Arg<string>>, serialize: Option<Arg<bool>>)
    : (r: Partial<NodeMetadata>)
    ensures CacheFieldsOnly(md, r.value)
  {
    if Promised(cache) then Stopped(md, PromiseIn("cache"))
    else
      match EffectiveCache(cache, version, serialize)
      case Some(CacheObject(policy)) =>
        if serialize.Some? || version.Some? then Stopped(md, LegacyCacheParameters)
        else if policy.version.None? then Stopped(md, MissingCacheVersion)
        else WriteCache(md, Some(true), Some(Static(policy.version.value)), Some(Static(policy.serialize)))
      case Some(CacheFlag(b)) => WriteCache(md, Some(b), version, serialize)
      case None => WriteCache(md, None, version, serialize)
  }

  /** `_override_node_metadata`, applied to the metadata it writes to. */
  function OverrideNodeMetadata(md: NodeMetadata, a: OverrideArgs): (r: Partial<NodeMetadata>)
    ensures a.timeout.TimeoutOmitted? ==> r.value.timeout == md.timeout
    ensures a.retries.None? ==> r.value.retries == md.retries
    ensures a.interruptible.None? ==> r.value.interruptible == md.interruptible
    ensures a.name.None? ==> r.value.name == md.name
  {
    var p := OverrideTimeout(md, a.timeout);
    if p.Stopped? then p
    else if Promised(a.retries) then Stopped(p.value, PromiseIn("retries"))
    else
      var m1 := if a.retries.Some? then p.value.(retries := RetryStrategy(a.retries.value.value)) else p.value;
      if Promised(a.interruptible) then Stopped(m1, PromiseIn("interruptible"))
      else
        var m2 := if a.interruptible.Some? then m1.(interruptible := Some(a.interruptible.value.value)) else m1;
        var m3 := if a.name.Some? then m2.(name := a.name.value) else m2;
        OverrideCache(m3, a.cache, a.cacheVersion, a.cacheSerialize)
  }

  function ToAliases(entries: seq<(string, string)>): (r: seq<Alias>)
    ensures |r| == |entries|
    ensures forall i :: 0 <= i < |r| ==> r[i] == Alias(entries[i].0, entries[i].1)
  {
    seq(|entries|, i requires 0 <= i < |entries| => Alias(entries[i].0, entries[i].1))
  }

  /** `isinstance(task_config, type(current))`, on exact class names. */
  predicate SameConfigType(current: Option<TaskConfig>, c: TaskConfig) {
    current.Some? && current.value.typeName == c.typeName
  }

  /** The requests and limits an override asks for, after `resources` has been split. */
  function RequestedResources(a: OverrideArgs, env: OverrideEnv): (Option<Resources>, Option<Resources>) {
    if a.resources.Some? then env.splitResources(a.resources.value) else (a.requests, a.limits)
  }

  /** The resources model an override installs, if any. */
  function ResourceOverride(a: OverrideArgs, env: OverrideEnv): Option<ResourceModel> {
    var rl := RequestedResources(a, env);
    if rl.0.Some? || rl.1.Some? then Some(ResourceModel(ConvertResourceOverrides(rl.0), ConvertResourceOverrides(rl.1)))
    else None
  }

  /** What every override step leaves alone: the node's entity, edges and bindings, and
      which metadata is the one written to. */
  predicate Framed(v: OverrideTarget, w: OverrideTarget) {
    && w.node.entity == v.node.entity && w.node.upstream == v.node.upstream
    && w.node.bindings == v.node.bindings
    && w.subNodeMetadata.Some? == v.subNodeMetadata.Some?
    && (v.subNodeMetadata.Some? ==> w.node.metadata == v.node.metadata)
  }

  function NameStep(v: OverrideTarget, a: OverrideArgs, env: OverrideEnv): (r: Partial<OverrideTarget>)
    ensures Framed(v, r.value) && r.value.node == v.node.(id := r.value.node.id)
    ensures r.value.subNodeMetadata == v.subNodeMetadata && r.value.runConfig == v.runConfig
  {
    if Promised(a.nodeName) then Stopped(v, PromiseIn("node_name"))
    else if a.nodeName.Some? then Done(v.(node := v.node.(id := env.dnsify(a.nodeName.value.value))))
    else Done(v)
  }

  function AliasStep(v: OverrideTarget, a: OverrideArgs): (r: Partial<OverrideTarget>)
    ensures Framed(v, r.value) && r.value.node == v.node.(aliases := r.value.node.aliases)
    ensures r.value.subNodeMetadata == v.subNodeMetadata && r.value.runConfig == v.runConfig
  {
    match a.aliases
    case None => Done(v)
    case Some(AliasesOther) => Stopped(v, AliasesNotDict)
    case Some(AliasDict(es)) => Done(v.(node := v.node.(aliases := Some(ToAliases(es)))))
  }

  function ResourceStep(v: OverrideTarget, a: OverrideArgs, env: OverrideEnv): (r: Partial<OverrideTarget>)
    ensures Framed(v, r.value) && r.value.node == v.node.(resources := r.value.node.resources)
    ensures r.value.subNodeMetadata == v.subNodeMetadata && r.value.runConfig == v.runConfig
  {
    if a.resources.Some? && (a.requests.Some? || a.limits.Some?) then Stopped(v, ResourcesWithRequestsOrLimits)
    else
      var model := ResourceOverride(a, env);
      var check := AssertNoPromisesInResources(model);
      if check.Some? then Stopped(v, check.value)
      else if model.Some? then Done(v.(node := v.node.(resources := model)))
      else Done(v)
  }

  function TaskConfigStep(v: OverrideTarget, a: OverrideArgs): (r: Partial<OverrideTarget>)
    ensures r.value.node == v.node && r.value.subNodeMetadata == v.subNodeMetadata
  {
    if a.taskConfig.None? then Done(v)
    else if !SameConfigType(v.runConfig, a.taskConfig.value) then Stopped(v, TaskConfigTypeChanged)
    else Done(v.(runConfig := a.taskConfig))
  }

  function ContainerImageStep(v: OverrideTarget, a: OverrideArgs): (r: Partial<OverrideTarget>)
    ensures Framed(v, r.value) && r.value.node == v.node.(containerImage := r.value.node.containerImage)
    ensures r.value.subNodeMetadata == v.subNodeMetadata && r.value.runConfig == v.runConfig
  {
    if Promised(a.containerImage) then Stopped(v, PromiseIn("container_image"))
    else if a.containerImage.Some? then Done(v.(node := v.node.(containerImage := Unwrap(a.containerImage))))
    else Done(v)
  }

  function ExtendedResourceStep(v: OverrideTarget, a: OverrideArgs, env: OverrideEnv): (r: Partial<OverrideTarget>)
    ensures Framed(v, r.value) && r.value.node == v.node.(extendedResources := r.value.node.extendedResources)
    ensures r.value.subNodeMetadata == v.subNodeMetadata && r.value.runConfig == v.runConfig
  {
    if Promised(a.accelerator) then Stopped(v, PromiseIn("accelerator"))
    else if Promised(a.sharedMemory) then Stopped(v, PromiseIn("shared_memory"))
    else Done(v.(node := v.node.(extendedResources := env.extendedResources(Unwrap(a.accelerator), Unwrap(a.sharedMemory)))))
  }

  function MetadataStep(v: OverrideTarget, a: OverrideArgs): (r: Partial<OverrideTarget>)
    ensures Framed(v, r.value) && r.value.runConfig == v.runConfig
    ensures r.value == WithMetadata(v, OverrideNodeMetadata(MetadataOf(v), a).value)
    ensures r.Stopped? <==> OverrideNodeMetadata(MetadataOf(v), a).Stopped?
  {
    var m := OverrideNodeMetadata(MetadataOf(v), a);
    if m.Stopped? then Stopped(WithMetadata(v, m.value), m.error) else Done(WithMetadata(v, m.value))
  }

  function PodTemplateStep(v: OverrideTarget, a: OverrideArgs): (r: Partial<OverrideTarget>)
    ensures Framed(v, r.value) && r.value.node == v.node.(podTemplate := r.value.node.podTemplate)
    ensures r.value.subNodeMetadata == v.subNodeMetadata && r.value.runConfig == v.runConfig
  {
    if Promised(a.podTemplate) then Stopped(v, PromiseIn("podtemplate"))
    else if a.podTemplate.Some? then Done(v.(node := v.node.(podTemplate := Unwrap(a.podTemplate))))
    else Done(v)
  }

  /** `with_overrides`, applied to the objects it writes to, in the order it writes them;
      the first failing step stops the sequence with the writes before it kept. */
  function Override(v: OverrideTarget, a: OverrideArgs, env: OverrideEnv): (r: Partial<OverrideTarget>)
    ensures Framed(v, r.value)
  {
    var p1 := NameStep(v, a, env);
    if p1.Stopped? then p1 else
    var p2 := AliasStep(p1.value, a);
    if p2.Stopped? then p2 else
    var p3 := ResourceStep(p2.value, a, env);
    if p3.Stopped? then p3 else
    var p4 := TaskConfigStep(p3.value, a);
    if p4.Stopped? then p4 else
    var p5 := ContainerImageStep(p4.value, a);
    if p5.Stopped? then p5 else
    var p6 := ExtendedResourceStep(p5.value, a, env);
    if p6.Stopped? then p6 else
    var p7 := MetadataStep(p6.value, a);
    if p7.Stopped? then p7 else
    PodTemplateStep(p7.value, a)
  }

  /** The override target of node `n`. */
  function ViewOf(g: Graph, n: NodeRef): (v: OverrideTarget)
    requires Valid(g) && n < |g.nodes|
    ensures v.node == g.nodes[n]
    ensures v.subNodeMetadata.Some? <==> g.entities[g.nodes[n].entity].kind.ArrayNodeMapTask?
  {
    var fe := g.entities[g.nodes[n].entity];
    OverrideTarget(g.nodes[n], g.entities[RunEntity(g, n)].taskConfig,
                   if fe.kind.ArrayNodeMapTask? then Some(fe.kind.subNodeMetadata) else None)
  }

  /** Writes an override target of node `n` back into the arena. */
  function Commit(g: Graph, n: NodeRef, v: OverrideTarget): (g': Graph)
    requires Valid(g) && n < |g.nodes|
    requires v.node.entity == g.nodes[n].entity && v.node.upstream == g.nodes[n].upstream
    ensures Valid(g') && |g'.nodes| == |g.nodes| && |g'.entities| == |g.entities|
    ensures g'.nodes[n] == v.node
    ensures forall m :: 0 <= m < |g.nodes| && m != n ==> g'.nodes[m] == g.nodes[m]
  {
    var re := RunEntity(g, n);
    var fe := g.nodes[n].entity;
    var ents1 := g.entities[re := g.entities[re].(taskConfig := v.runConfig)];
    var ents2 :=
      if ents1[fe].kind.ArrayNodeMapTask? && v.subNodeMetadata.Some?
      then ents1[fe := ents1[fe].(kind := ents1[fe].kind.(subNodeMetadata := v.subNodeMetadata.value))]
      else ents1;
    assert forall e :: 0 <= e < |ents2| ==> ents2[e].kind.PlainEntity? || ents2[e].kind == g.entities[e].kind
                                            || ents2[e].kind.pythonFunctionTask == g.entities[e].kind.pythonFunctionTask;
    Graph(g.nodes[n := v.node], ents2)
  }

  /** `node.with_overrides(...)` on node `n` of the arena. */
  function WithOverrides(g: Graph, n: NodeRef, a: OverrideArgs, env: OverrideEnv): (r: Partial<Graph>)
    requires Valid(g) && n < |g.nodes|
    ensures Valid(r.value) && |r.value.nodes| == |g.nodes| && |r.value.entities| == |g.entities|
    ensures forall m :: 0 <= m < |g.nodes| && m != n ==> r.value.nodes[m] == g.nodes[m]
    ensures r.value.nodes[n].upstream == g.nodes[n].upstream && r.value.nodes[n].entity == g.nodes[n].entity
  {
    var p := Override(ViewOf(g, n), a, env);
    var g' := Commit(g, n, p.value);
    if p.Stopped? then Stopped(g', p.error) else Done(g')
  }
}

=== FILE: node_properties.dfy ===
/** Properties of the node model: edge insertion, the resource conversion, and what
    `with_overrides` accepts, writes and keeps. */
module NodeProperties {
  import opened Outcomes
  import opened Nodes

  // ---------------------------------------------------------------- edges

  /** Repeating `a.runs_before(b)` changes nothing. */
  lemma RunsBeforeIdempotent(g: Graph, a: NodeRef, b: NodeRef)
    requires Valid(g) && a < |g.nodes| && b < |g.nodes|
    ensures RunsBefore(RunsBefore(g, a, b), a, b) == RunsBefore(g, a, b)
  {
  }

  /** However often `a.runs_before(b)` is called, `a` occurs in `b`'s upstream list
      exactly as often as before, or once if it was absent. */
  lemma RunsBeforeAddsOnce(g: Graph, a: NodeRef, b: NodeRef)
    requires Valid(g) && a < |g.nodes| && b < |g.nodes|
    ensures multiset(RunsBefore(g, a, b).nodes[b].upstream)[a] ==
              if a in g.nodes[b].upstream then multiset(g.nodes[b].upstream)[a] else 1
    ensures forall u :: u != a ==> multiset(RunsBefore(g, a, b).nodes[b].upstream)[u] == multiset(g.nodes[b].upstream)[u]
  {
    var ups := g.nodes[b].upstream;
    if a !in ups {
      assert multiset(ups + [a]) == multiset(ups) + multiset{a};
    }
  }

  /** `a >> b >> c` leaves `a` upstream of `b` and `b` upstream of `c`; the only edge
      `c` gains is the one from `b`. */
  lemma ChainedRightShift(g: Graph, a: NodeRef, b: NodeRef, c: NodeRef)
    requires Valid(g) && a < |g.nodes| && b < |g.nodes| && c < |g.nodes|
    requires b != c
    ensures var (g1, b1) := RightShift(g, a, b);
            var (g2, c1) := RightShift(g1, b1, c);
            && c1 == c && a in g2.nodes[b].upstream && b in g2.nodes[c].upstream
            && g2.nodes[c].upstream == g.nodes[c].upstream + (if b in g.nodes[c].upstream then [] else [b])
  {
    var (g1, b1) := RightShift(g, a, b);
    assert b1 == b && g1.nodes[c] == g.nodes[c];
  }

  /** Two nodes created as `n0` and `n1`, then `n1.runs_before(n0)`: the upstream ids of
      `n0` are exactly `["n1"]`. */
  lemma UpstreamIdsAfterRunsBefore(md0: NodeMetadata, md1: NodeMetadata, dnsify: string -> string)
    requires dnsify("n0") == "n0" && dnsify("n1") == "n1"
    ensures var g0 := Graph([], [Entity(PlainEntity, None), Entity(PlainEntity, None)]);
            var r0 := NewNode(g0, Some("n0"), md0, [], [], 0, dnsify);
            r0.Ok? &&
            var r1 := NewNode(r0.value.0, Some("n1"), md1, [], [], 1, dnsify);
            r1.Ok? &&
            var g := RunsBefore(r1.value.0, r1.value.1, r0.value.1);
            UpstreamIds(g, r0.value.1) == ["n1"] && g.nodes[r0.value.1].id == "n0"
  {
    var g0 := Graph([], [Entity(PlainEntity, None), Entity(PlainEntity, None)]);
    var r0 := NewNode(g0, Some("n0"), md0, [], [], 0, dnsify);
    var r1 := NewNode(r0.value.0, Some("n1"), md1, [], [], 1, dnsify);
    var g := RunsBefore(r1.value.0, r1.value.1, r0.value.1);
    assert g.nodes[0].upstream == [1];
  }

  // ---------------------------------------------------------------- resources

  /** The requests of the map-task override test, in the order the test expects. */
  lemma ConvertResourcesExample()
    ensures ConvertResourceOverrides(Some(Resources(Some(Static("1")), Some(Static("100")), None, Some(Static("500Mi")))))
            == [ResourceEntry(Cpu, Static("1")), ResourceEntry(Memory, Static("100")), ResourceEntry(EphemeralStorage, Static("500Mi"))]
  {
  }

  /** No entry of a resource set holds a promise. */
  predicate ResourcesStatic(r: Option<Resources>) {
    r.None? || forall n :: Field(r.value, n).Some? ==> Field(r.value, n).value.Static?
  }

  /** The promise check over the converted model agrees with a check of the fields. */
  lemma ResourcePromiseCheck(a: OverrideArgs, env: OverrideEnv)
    ensures AssertNoPromisesInResources(ResourceOverride(a, env)).None? <==>
              ResourcesStatic(RequestedResources(a, env).0) && ResourcesStatic(RequestedResources(a, env).1)
  {
    var rl := RequestedResources(a, env);
    ConvertedStatic(rl.0);
    ConvertedStatic(rl.1);
  }

  lemma ConvertedStatic(r: Option<Resources>)
    ensures (forall i :: 0 <= i < |ConvertResourceOverrides(r)| ==> ConvertResourceOverrides(r)[i].value.Static?)
            <==> ResourcesStatic(r)
  {
    var es := ConvertResourceOverrides(r);
    if r.Some? && forall i :: 0 <= i < |es| ==> es[i].value.Static? {
      forall n | Field(r.value, n).Some?
        ensures Field(r.value, n).value.Static?
      {
        var i :| 0 <= i < |es| && es[i].name == n;
      }
    }
  }

  // ---------------------------------------------------------------- acceptance

  /** The cache arguments `_override_node_metadata` accepts: a `Cache` object must come
      alone and carry a version; `cache=True` needs a legacy version; legacy values must
      not be promises. */
  predicate CacheArgsAccepted(a: OverrideArgs) {
    && !Promised(a.cache)
    && if a.cache.Some? && a.cache.value.value.CacheObject? then
         a.cacheVersion.None? && a.cacheSerialize.None? && a.cache.value.value.policy.version.Some?
       else
         && (a.cache == Some(Static(CacheFlag(true))) ==> a.cacheVersion.Some?)
         && !Promised(a.cacheVersion) && !Promised(a.cacheSerialize)
  }

  /** The arguments `_override_node_metadata` accepts. */
  predicate MetadataArgsAccepted(a: OverrideArgs) {
    && !a.timeout.TimeoutOther?
    && !Promised(a.retries) && !Promised(a.interruptible)
    && CacheArgsAccepted(a)
  }

  /** The arguments `with_overrides` accepts for a node whose run entity has the task
      configuration `runConfig`. */
  predicate OverrideAccepted(runConfig: Option<TaskConfig>, a: OverrideArgs, env: OverrideEnv) {
    && !Promised(a.nodeName)
    && a.aliases != Some(AliasesOther)
    && !(a.resources.Some? && (a.requests.Some? || a.limits.Some?))
    && ResourcesStatic(RequestedResources(a, env).0) && ResourcesStatic(RequestedResources(a, env).1)
    && (a.taskConfig.Some? ==> SameConfigType(runConfig, a.taskConfig.value))
    && !Promised(a.containerImage) && !Promised(a.accelerator) && !Promised(a.sharedMemory)
    && MetadataArgsAccepted(a)
    && !Promised(a.podTemplate)
  }

  lemma CacheSucceedsExactly(md: NodeMetadata, a: OverrideArgs)
    ensures OverrideCache(md, a.cache, a.cacheVersion, a.cacheSerialize).Done? <==> CacheArgsAccepted(a)
  {
  }

  /** `_override_node_metadata` completes exactly for the accepted arguments, whatever the
      metadata it writes to. */
  lemma MetadataSucceedsExactly(md: NodeMetadata, a: OverrideArgs)
    ensures OverrideNodeMetadata(md, a).Done? <==> MetadataArgsAccepted(a)
  {
    var p := OverrideTimeout(md, a.timeout);
    if p.Done? && !Promised(a.retries) && !Promised(a.interruptible) {
      var m1 := if a.retries.Some? then p.value.(retries := RetryStrategy(a.retries.value.value)) else p.value;
      var m2 := if a.interruptible.Some? then m1.(interruptible := Some(a.interruptible.value.value)) else m1;
      var m3 := if a.name.Some? then m2.(name := a.name.value) else m2;
      CacheSucceedsExactly(m3, a);
    }
  }

  /** `with_overrides` completes exactly for the accepted arguments; every failure is an
      error it raises. */
  lemma OverrideSucceedsExactly(v: OverrideTarget, a: OverrideArgs, env: OverrideEnv)
    ensures Override(v, a, env).Done? <==> OverrideAccepted(v.runConfig, a, env)
  {
    ResourcePromiseCheck(a, env);
    var p1 := NameStep(v, a, env);
    var p2 := AliasStep(p1.value, a);
    var p3 := ResourceStep(p2.value, a, env);
    var p4 := TaskConfigStep(p3.value, a);
    var p5 := ContainerImageStep(p4.value, a);
    var p6 := ExtendedResourceStep(p5.value, a, env);
    MetadataSucceedsExactly(MetadataOf(p6.value), a);
  }

  // ---------------------------------------------------------------- metadata writes

  /** The timeout override: left out keeps the current value, None is a zero duration,
      an int is that many seconds, a timedelta is stored as given, anything else fails. */
  lemma TimeoutOverride(md: NodeMetadata, a: OverrideArgs)
    ensures a.timeout.TimeoutOmitted? ==> OverrideNodeMetadata(md, a).value.timeout == md.timeout
    ensures a.timeout.TimeoutNone? ==> OverrideNodeMetadata(md, a).value.timeout == Duration(0)
    ensures a.timeout.TimeoutSeconds? ==> OverrideNodeMetadata(md, a).value.timeout == Duration(a.timeout.seconds * 1000000)
    ensures a.timeout.TimeoutDelta? ==> OverrideNodeMetadata(md, a).value.timeout == a.timeout.delta
    ensures a.timeout.TimeoutOther? ==> OverrideNodeMetadata(md, a) == Stopped(md, InvalidTimeout)
                                        && Kind(InvalidTimeout) == ValueError
  {
    var p := OverrideTimeout(md, a.timeout);
    if p.Done? && !Promised(a.retries) && !Promised(a.interruptible) {
      var m1 := if a.retries.Some? then p.value.(retries := RetryStrategy(a.retries.value.value)) else p.value;
      var m2 := if a.interruptible.Some? then m1.(interruptible := Some(a.interruptible.value.value)) else m1;
      var m3 := if a.name.Some? then m2.(name := a.name.value) else m2;
      assert m3.timeout == p.value.timeout;
    }
  }

  /** A completed metadata override wrote each given retries, interruptible and name
      value; retries `n` becomes `RetryStrategy(n)`. */
  lemma RetriesInterruptibleName(md: NodeMetadata, a: OverrideArgs)
    requires OverrideNodeMetadata(md, a).Done?
    ensures a.retries.Some? ==> OverrideNodeMetadata(md, a).value.retries == RetryStrategy(a.retries.value.value)
    ensures a.interruptible.Some? ==> OverrideNodeMetadata(md, a).value.interruptible == Some(a.interruptible.value.value)
    ensures a.name.Some? ==> OverrideNodeMetadata(md, a).value.name == a.name.value
  {
  }

  /** The `cacheable` flag a completed override leaves: None when `cache` is omitted, the
      flag given, or true for a `Cache` object. */
  function CacheableAfter(cache: Option<Arg<CacheArg>>): Option<bool>
    requires !Promised(cache)
  {
    match cache
    case None => None
    case Some(c) => if c.value.CacheFlag? then Some(c.value.flag) else Some(true)
  }

  /** Which cache fields a completed metadata override leaves: `cacheable` is assigned on
      every call, the version and serialisation come from the `Cache` object or the
      legacy arguments, and are otherwise kept. */
  lemma CacheOverrideWrites(md: NodeMetadata, a: OverrideArgs)
    requires OverrideNodeMetadata(md, a).Done?
    ensures MetadataArgsAccepted(a)
    ensures OverrideNodeMetadata(md, a).value.cacheable == CacheableAfter(a.cache)
    ensures OverrideNodeMetadata(md, a).value.cacheVersion ==
              if a.cache.Some? && a.cache.value.value.CacheObject? then a.cache.value.value.policy.version.value
              else if a.cacheVersion.Some? then a.cacheVersion.value.value
              else md.cacheVersion
    ensures OverrideNodeMetadata(md, a).value.cacheSerializable ==
              if a.cache.Some? && a.cache.value.value.CacheObject? then a.cache.value.value.policy.serialize
              else if a.cacheSerialize.Some? then a.cacheSerialize.value.value
              else md.cacheSerializable
  {
    MetadataSucceedsExactly(md, a);
  }

  /** Omitting `cache` still assigns `cacheable`: it becomes None once the earlier
      metadata writes have gone through, whether or not a later check fails. */
  lemma CacheableResetWhenOmitted(md: NodeMetadata, a: OverrideArgs)
    requires a.cache.None? && !a.timeout.TimeoutOther? && !Promised(a.retries) && !Promised(a.interruptible)
    ensures OverrideNodeMetadata(md, a).value.cacheable.None?
  {
  }

  /** `cache=True` without `cache_version` always fails with a ValueError: the default
      `Cache` it becomes has no version, and a legacy `cache_serialize` beside it is
      refused. */
  lemma CacheTrueWithoutVersionFails(md: NodeMetadata, a: OverrideArgs)
    requires a.cache == Some(Static(CacheFlag(true))) && a.cacheVersion.None?
    requires !a.timeout.TimeoutOther? && !Promised(a.retries) && !Promised(a.interruptible)
    ensures OverrideNodeMetadata(md, a).Stopped?
    ensures OverrideNodeMetadata(md, a).error == (if a.cacheSerialize.Some? then LegacyCacheParameters else MissingCacheVersion)
    ensures Kind(OverrideNodeMetadata(md, a).error) == ValueError
  {
  }

  /** A `Cache` object beside a legacy parameter, or without a version, fails with a
      ValueError and writes no cache field. */
  lemma CacheObjectRefused(md: NodeMetadata, a: OverrideArgs, policy: CachePolicy)
    requires a.cache == Some(Static(CacheObject(policy)))
    requires a.cacheVersion.Some? || a.cacheSerialize.Some? || policy.version.None?
    requires !a.timeout.TimeoutOther? && !Promised(a.retries) && !Promised(a.interruptible)
    ensures OverrideNodeMetadata(md, a).Stopped?
    ensures OverrideNodeMetadata(md, a).error ==
              (if a.cacheVersion.Some? || a.cacheSerialize.Some? then LegacyCacheParameters else MissingCacheVersion)
    ensures Kind(OverrideNodeMetadata(md, a).error) == ValueError
    ensures OverrideNodeMetadata(md, a).value.cacheable == md.cacheable
    ensures OverrideNodeMetadata(md, a).value.cacheVersion == md.cacheVersion
  {
  }

  /** `cache=Cache(version=v, serialize=s)` and the legacy
      `cache=True, cache_version=v, cache_serialize=s` are the same override. */
  lemma CacheObjectMatchesLegacy(v: OverrideTarget, a: OverrideArgs, env: OverrideEnv, version: string, serialize: bool)
    requires a.cacheVersion.None? && a.cacheSerialize.None?
    ensures Override(v, a.(cache := Some(Static(CacheObject(CachePolicy(Some(version), serialize))))), env)
         == Override(v, a.(cache := Some(Static(CacheFlag(true))), cacheVersion := Some(Static(version)),
                           cacheSerialize := Some(Static(serialize))), env)
  {
    var a1 := a.(cache := Some(Static(CacheObject(CachePolicy(Some(version), serialize)))));
    var a2 := a.(cache := Some(Static(CacheFlag(true))), cacheVersion := Some(Static(version)),
                 cacheSerialize := Some(Static(serialize)));
    forall md: NodeMetadata
      ensures OverrideNodeMetadata(md, a1) == OverrideNodeMetadata(md, a2)
    {
    }
    SameMetadataOverrideSameOverride(v, a1, a2, env);
  }

  /** Arguments that differ only in what `_override_node_metadata` reads, and that it
      treats alike, give the same override. */
  lemma SameMetadataOverrideSameOverride(v: OverrideTarget, a1: OverrideArgs, a2: OverrideArgs, env: OverrideEnv)
    requires a1.(timeout := a2.timeout, retries := a2.retries, interruptible := a2.interruptible, name := a2.name,
                 cache := a2.cache, cacheVersion := a2.cacheVersion, cacheSerialize := a2.cacheSerialize) == a2
    requires forall md: NodeMetadata :: OverrideNodeMetadata(md, a1) == OverrideNodeMetadata(md, a2)
    ensures Override(v, a1, env) == Override(v, a2, env)
  {
    var p1 := NameStep(v, a1, env);
    assert p1 == NameStep(v, a2, env);
    var p2 := AliasStep(p1.value, a1);
    assert p2 == AliasStep(p1.value, a2);
    var p3 := ResourceStep(p2.value, a1, env);
    assert ResourceOverride(a1, env) == ResourceOverride(a2, env);
    assert p3 == ResourceStep(p2.value, a2, env);
    var p4 := TaskConfigStep(p3.value, a1);
    assert p4 == TaskConfigStep(p3.value, a2);
    var p5 := ContainerImageStep(p4.value, a1);
    assert p5 == ContainerImageStep(p4.value, a2);
    var p6 := ExtendedResourceStep(p5.value, a1, env);
    assert p6 == ExtendedResourceStep(p5.value, a2, env);
    var p7 := MetadataStep(p6.value, a1);
    assert p7 == MetadataStep(p6.value, a2);
    assert PodTemplateStep(p7.value, a1) == PodTemplateStep(p7.value, a2);
  }

  // ---------------------------------------------------------------- node writes

  /** `node_name` sets the node's id to its DNS-safe form, and the new id stays even when
      a later check fails; without `node_name` the id is kept. */
  lemma NodeNameApplied(v: OverrideTarget, a: OverrideArgs, env: OverrideEnv)
    ensures a.nodeName.Some? && a.nodeName.value.Static? ==>
              Override(v, a, env).value.node.id == env.dnsify(a.nodeName.value.value)
    ensures a.nodeName.None? ==> Override(v, a, env).value.node.id == v.node.id
  {
    var p1 := NameStep(v, a, env);
    var p2 := AliasStep(p1.value, a);
    var p3 := ResourceStep(p2.value, a, env);
    var p4 := TaskConfigStep(p3.value, a);
    var p5 := ContainerImageStep(p4.value, a);
    var p6 := ExtendedResourceStep(p5.value, a, env);
    var p7 := MetadataStep(p6.value, a);
    assert p7.value.node.id == p6.value.node.id;
  }

  /** `aliases` must be a dict, which replaces the alias list wholesale, in order, and
      stays even when a later check fails. */
  lemma AliasesOverride(v: OverrideTarget, a: OverrideArgs, env: OverrideEnv)
    requires !Promised(a.nodeName)
    ensures a.aliases == Some(AliasesOther) ==>
              && Override(v, a, env).Stopped? && Override(v, a, env).error == AliasesNotDict
              && Kind(AliasesNotDict) == AssertionError
    ensures a.aliases.Some? && a.aliases.value.AliasDict? ==>
              Override(v, a, env).value.node.aliases == Some(ToAliases(a.aliases.value.entries))
    ensures a.aliases.None? ==> Override(v, a, env).value.node.aliases == v.node.aliases
  {
    var p1 := NameStep(v, a, env);
    var p2 := AliasStep(p1.value, a);
    var p3 := ResourceStep(p2.value, a, env);
    var p4 := TaskConfigStep(p3.value, a);
    var p5 := ContainerImageStep(p4.value, a);
    var p6 := ExtendedResourceStep(p5.value, a, env);
    var p7 := MetadataStep(p6.value, a);
    assert p7.value.node.aliases == p6.value.node.aliases;
  }

  /** `resources` together with `requests` or `limits` is refused with a ValueError,
      before any resource is written. */
  lemma ResourcesExclusive(v: OverrideTarget, a: OverrideArgs, env: OverrideEnv)
    requires !Promised(a.nodeName) && a.aliases != Some(AliasesOther)
    requires a.resources.Some? && (a.requests.Some? || a.limits.Some?)
    ensures Override(v, a, env).Stopped? && Override(v, a, env).error == ResourcesWithRequestsOrLimits
    ensures Kind(ResourcesWithRequestsOrLimits) == ValueError
    ensures Override(v, a, env).value.node.resources == v.node.resources
  {
  }

  /** Requests without limits are accepted: the node's resources become the converted
      requests and an empty limits list. */
  lemma RequestsWithoutLimits(v: OverrideTarget, a: OverrideArgs, env: OverrideEnv, q: Resources)
    requires !Promised(a.nodeName) && a.aliases != Some(AliasesOther)
    requires a.resources.None? && a.requests == Some(q) && a.limits.None? && ResourcesStatic(Some(q))
    ensures Override(v, a, env).value.node.resources == Some(ResourceModel(ConvertResourceOverrides(Some(q)), []))
  {
    ResourcePromiseCheck(a, env);
    var p1 := NameStep(v, a, env);
    var p2 := AliasStep(p1.value, a);
    var p3 := ResourceStep(p2.value, a, env);
    var p4 := TaskConfigStep(p3.value, a);
    var p5 := ContainerImageStep(p4.value, a);
    var p6 := ExtendedResourceStep(p5.value, a, env);
    var p7 := MetadataStep(p6.value, a);
    assert p7.value.node.resources == p6.value.node.resources;
  }

  /** A task configuration of a different type from the run entity's current one is
      refused with a ValueError, and the current one is kept. */
  lemma TaskConfigTypeMismatch(v: OverrideTarget, a: OverrideArgs, env: OverrideEnv)
    requires !Promised(a.nodeName) && a.aliases != Some(AliasesOther)
    requires !(a.resources.Some? && (a.requests.Some? || a.limits.Some?))
    requires ResourcesStatic(RequestedResources(a, env).0) && ResourcesStatic(RequestedResources(a, env).1)
    requires a.taskConfig.Some? && !SameConfigType(v.runConfig, a.taskConfig.value)
    ensures Override(v, a, env).Stopped? && Override(v, a, env).error == TaskConfigTypeChanged
    ensures Kind(TaskConfigTypeChanged) == ValueError
    ensures Override(v, a, env).value.runConfig == v.runConfig
  {
    ResourcePromiseCheck(a, env);
  }

  /** What a completed override wrote: each given field, the extended resources always
      (rebuilt from the accelerator and shared memory given), and the metadata as
      `_override_node_metadata` leaves it; everything else is kept. */
  lemma OverrideWrites(v: OverrideTarget, a: OverrideArgs, env: OverrideEnv)
    requires Override(v, a, env).Done?
    ensures OverrideAccepted(v.runConfig, a, env)
    ensures var w := Override(v, a, env).value;
            && w.node.id == (if a.nodeName.Some? then env.dnsify(a.nodeName.value.value) else v.node.id)
            && w.node.aliases == (if a.aliases.Some? then Some(ToAliases(a.aliases.value.entries)) else v.node.aliases)
            && w.node.resources == (if ResourceOverride(a, env).Some? then ResourceOverride(a, env) else v.node.resources)
            && w.runConfig == (if a.taskConfig.Some? then a.taskConfig else v.runConfig)
            && w.node.containerImage == (if a.containerImage.Some? then Unwrap(a.containerImage) else v.node.containerImage)
            && w.node.extendedResources == env.extendedResources(Unwrap(a.accelerator), Unwrap(a.sharedMemory))
            && w.node.podTemplate == (if a.podTemplate.Some? then Unwrap(a.podTemplate) else v.node.podTemplate)
            && MetadataOf(w) == OverrideNodeMetadata(MetadataOf(v), a).value
            && w.node.bindings == v.node.bindings && w.node.upstream == v.node.upstream
  {
    OverrideSucceedsExactly(v, a, env);
    var p1 := NameStep(v, a, env);
    var p2 := AliasStep(p1.value, a);
    var p3 := ResourceStep(p2.value, a, env);
    var p4 := TaskConfigStep(p3.value, a);
    var p5 := ContainerImageStep(p4.value, a);
    var p6 := ExtendedResourceStep(p5.value, a, env);
    var p7 := MetadataStep(p6.value, a);
    var p8 := PodTemplateStep(p7.value, a);
    assert p1.Done? && p2.Done? && p3.Done? && p4.Done? && p5.Done? && p6.Done? && p7.Done?;
    assert p8 == Override(v, a, env);
    assert MetadataOf(p6.value) == MetadataOf(v);
  }

  /** `with_overrides()` with no arguments is not a no-op: it rebuilds the extended
      resources from nothing and resets `cacheable` to None, and keeps all else. */
  lemma EmptyOverride(v: OverrideTarget, env: OverrideEnv)
    ensures Override(v, NoOverrides(), env) ==
              Done(WithMetadata(v.(node := v.node.(extendedResources := env.extendedResources(None, None))),
                                MetadataOf(v).(cacheable := None)))
  {
  }

  // ---------------------------------------------------------------- promise guards

  /** A promise given alone as `node_name` or as a resource value is refused with an
      AssertionError naming it; a refused `node_name` writes nothing. */
  lemma PromisesRefusedEarly(v: OverrideTarget, env: OverrideEnv, src: string)
    ensures Override(v, NoOverrides().(nodeName := Some(Promise(src))), env) == Stopped(v, PromiseIn("node_name"))
    ensures Override(v, NoOverrides().(requests := Some(Resources(Some(Promise(src)), None, None, None))), env).error
            == PromiseIn("resources.requests")
    ensures Override(v, NoOverrides().(limits := Some(Resources(None, Some(Promise(src)), None, None))), env).error
            == PromiseIn("resources.limits")
    ensures Kind(PromiseIn(src)) == AssertionError
  {
    var q := NoOverrides().(requests := Some(Resources(Some(Promise(src)), None, None, None)));
    assert ConvertResourceOverrides(Some(q.requests.value))[0].value.Promise?;
    var l := NoOverrides().(limits := Some(Resources(None, Some(Promise(src)), None, None)));
    assert ConvertResourceOverrides(Some(l.limits.value))[0].value.Promise?;
  }

  /** A promise given alone as the container image, accelerator, shared memory or pod
      template is refused naming that argument. */
  lemma PromisesRefusedOnNode(v: OverrideTarget, env: OverrideEnv, src: string)
    ensures Override(v, NoOverrides().(containerImage := Some(Promise(src))), env).error == PromiseIn("container_image")
    ensures Override(v, NoOverrides().(accelerator := Some(Promise(src))), env).error == PromiseIn("accelerator")
    ensures Override(v, NoOverrides().(sharedMemory := Some(Promise(src))), env).error == PromiseIn("shared_memory")
    ensures Override(v, NoOverrides().(podTemplate := Some(Promise(src))), env).error == PromiseIn("podtemplate")
  {
  }

  /** A promise given alone as a metadata argument is refused naming that argument. */
  lemma PromisesRefusedInMetadata(md: NodeMetadata, src: string)
    ensures OverrideNodeMetadata(md, NoOverrides().(retries := Some(Promise(src)))).error == PromiseIn("retries")
    ensures OverrideNodeMetadata(md, NoOverrides().(interruptible := Some(Promise(src)))).error == PromiseIn("interruptible")
    ensures OverrideNodeMetadata(md, NoOverrides().(cache := Some(Promise(src)))).error == PromiseIn("cache")
    ensures OverrideNodeMetadata(md, NoOverrides().(cacheVersion := Some(Promise(src)))).error == PromiseIn("cache_version")
    ensures OverrideNodeMetadata(md, NoOverrides().(cacheSerialize := Some(Promise(src)))).error == PromiseIn("cache_serialize")
  {
  }

  // ---------------------------------------------------------------- the arena

  /** `with_overrides` is not atomic: a `node_name` given beside a refused resource
      combination has already renamed the node when the ValueError is raised, and
      nothing else has changed. */
  lemma NodeNameSurvivesResourceConflict(g: Graph, n: NodeRef, env: OverrideEnv, name: string, r: Resources, q: Resources)
    requires Valid(g) && n < |g.nodes|
    ensures var a := NoOverrides().(nodeName := Some(Static(name)), resources := Some(r), requests := Some(q));
            WithOverrides(g, n, a, env) ==
              Stopped(Graph(g.nodes[n := g.nodes[n].(id := env.dnsify(name))], g.entities), ResourcesWithRequestsOrLimits)
  {
    var re := RunEntity(g, n);
    assert g.entities[re := g.entities[re].(taskConfig := g.entities[re].taskConfig)] == g.entities;
    var fe := g.entities[g.nodes[n].entity];
    if fe.kind.ArrayNodeMapTask? {
      var e := g.nodes[n].entity;
      assert g.entities[e := g.entities[e].(kind := g.entities[e].kind.(subNodeMetadata := fe.kind.subNodeMetadata))] == g.entities;
    }
  }

  /** Metadata overrides on an array-node map task go to its sub-node metadata and leave
      the node's own metadata alone; on any other node they go to the node's metadata and
      no entity's kind changes. */
  lemma MetadataRedirect(g: Graph, n: NodeRef, a: OverrideArgs, env: OverrideEnv)
    requires Valid(g) && n < |g.nodes|
    ensures var e := g.nodes[n].entity;
            var r := WithOverrides(g, n, a, env);
            if g.entities[e].kind.ArrayNodeMapTask? then
              && r.value.nodes[n].metadata == g.nodes[n].metadata
              && r.value.entities[e].kind.ArrayNodeMapTask?
              && (r.Done? ==> r.value.entities[e].kind.subNodeMetadata ==
                                OverrideNodeMetadata(g.entities[e].kind.subNodeMetadata, a).value)
            else
              && (r.Done? ==> r.value.nodes[n].metadata == OverrideNodeMetadata(g.nodes[n].metadata, a).value)
              && forall k :: 0 <= k < |g.entities| ==> r.value.entities[k].kind == g.entities[k].kind
  {
    var v := ViewOf(g, n);
    var p := Override(v, a, env);
    if p.Done? {
      OverrideWrites(v, a, env);
    }
  }

  /** A completed `task_config` override is stored on the run entity (the task a map task
      runs), and no other entity's configuration changes. */
  lemma TaskConfigGoesToRunEntity(g: Graph, n: NodeRef, a: OverrideArgs, env: OverrideEnv)
    requires Valid(g) && n < |g.nodes|
    ensures var r := WithOverrides(g, n, a, env);
            && (r.Done? && a.taskConfig.Some? ==> r.value.entities[RunEntity(g, n)].taskConfig == a.taskConfig)
            && forall k :: 0 <= k < |g.entities| && k != RunEntity(g, n) ==> r.value.entities[k].taskConfig == g.entities[k].taskConfig
  {
    var v := ViewOf(g, n);
    var p := Override(v, a, env);
    if p.Done? {
      OverrideWrites(v, a, env);
    }
  }
}

=== FILE: outcomes.dfy ===
/** Failure-carrying wrappers shared by every module of the model. */
module Outcomes {

  /** A Python `Optional[...]`: `None` or a present value. */
  datatype Option<+T> = None | Some(value: T)

  /** The result of an operation that either returns or raises. */
  datatype Result<+T, +E> = Ok(value: T) | Err(error: E)
}

=== FILE: pickle.dfy ===
/** The opaque-value (pickle) type mapping (flytekit/types/pickle/pickle.py). */
module Pickle {
  import opened Outcomes
  import opened Literals

  /** The blob format reserved for pickled values. */
  const PythonPickleFormat: string := "PythonPickle"

  /** A host type, known by its `str(...)` rendering; `NoneType` is `type(None)`. */
  datatype PyType = NoneType | NamedType(display: string)

  /** `str(t)` of a host type. */
  function TypeString(t: PyType): string {
    match t
    case NoneType => "<class 'NoneType'>"
    case NamedType(d) => d
  }

  /** `FlytePickle` itself, or the class `FlytePickle[T]` creates for a type `T`. */
  datatype PickleClass = BasePickle | SpecificPickle(of: PyType)

  /** `FlytePickle[item]`: `None` yields `FlytePickle` itself. */
  function PickleClassGetItem(item: Option<PyType>): (c: PickleClass)
    ensures c == BasePickle <==> item.None?
    ensures item.Some? ==> PythonType(c) == item.value
  {
    if item.None? then BasePickle else SpecificPickle(item.value)
  }

  /** `cls.python_type()`: `NoneType` for `FlytePickle` itself. */
  function PythonType(c: PickleClass): PyType {
    match c
    case BasePickle => NoneType
    case SpecificPickle(t) => t
  }

  /** A host value handed to the transformer: `None`, or any other object. */
  datatype PyValue = NoneValue | Object(repr: string)

  datatype PickleError =
    | CannotPickleNone   // AssertionError
    | CannotReverse      // ValueError

  /** `FlytePickleTransformer.async_to_literal`: `storedUri` is the location
      `FlytePickle.to_pickle` reports for the serialised bytes. */
  function PickleToLiteral(v: PyValue, storedUri: string): (r: Result<Literal, PickleError>)
    ensures v.NoneValue? <==> r == Err(CannotPickleNone)
    ensures r.Ok? ==> r.value == BlobLiteral(SingleBlob(PythonPickleFormat), storedUri, None)
  {
    if v.NoneValue? then Err(CannotPickleNone)
    else Ok(BlobLiteral(SingleBlob(PythonPickleFormat), storedUri, None))
  }

  /** `FlytePickleTransformer.get_literal_type(t)`. */
  function PickleLiteralType(t: PyType): (lt: LiteralType)
    ensures lt.blob == Some(BlobType(PythonPickleFormat, Single))
    ensures lt.metadata == Some(map["python_class_name" := TypeString(t)])
  {
    LiteralType(Some(SingleBlob(PythonPickleFormat)), Some(map["python_class_name" := TypeString(t)]))
  }

  /** A single-file blob type of the reserved pickle format. */
  predicate IsPickleBlobType(lt: LiteralType) {
    lt.blob.Some? && lt.blob.value.dimensionality == Single && lt.blob.value.format == PythonPickleFormat
  }

  /** `FlytePickleTransformer.guess_python_type`. */
  function PickleGuessPythonType(lt: LiteralType): (r: Result<PickleClass, PickleError>)
    ensures r.Ok? <==> lt.blob.Some? && lt.blob.value.dimensionality == Single
                       && lt.blob.value.format == PythonPickleFormat
    ensures r.Ok? ==> r.value == BasePickle
    ensures r.Err? ==> r.error == CannotReverse
  {
    if IsPickleBlobType(lt) then Ok(BasePickle) else Err(CannotReverse)
  }

  /** Every pickle literal type is reversed, to `FlytePickle` itself. */
  lemma PickleLiteralTypeReverses(t: PyType)
    ensures PickleGuessPythonType(PickleLiteralType(t)) == Ok(BasePickle)
  {
  }

  /** The literal a pickled value is written as has the literal type's blob tag. */
  lemma PickleLiteralMatchesType(v: PyValue, storedUri: string, t: PyType)
    requires !v.NoneValue?
    ensures var r := PickleToLiteral(v, storedUri);
            r.Ok? && Some(BlobOf(r.value).blobType) == PickleLiteralType(t).blob
  {
  }
}
